=== FILE: README.md ===
# Node service collection: a Dafny model

This project models the request-handling core of a collection of small Node.js
services and front-end helpers. Each one is modelled in its own module:

- **booklist**: a GraphQL reading-list service.
  - `BooklistModels` holds the User and Book documents and their schema defaults.
  - `BooklistUtils` holds the `getUserId` authentication gate and the `login` credential check.
  - `BooklistAuthentication` is the middleware that turns an `Authorization` header into `req.userId`.
  - `BooklistSchema` holds the root queries, the mutations and the relationship resolvers. They run over a `Database` class whose two collections (`users`, `books`) the mutations change in place.
  - bcrypt and jsonwebtoken are kept uninterpreted (`BooklistCrypto`). Their hash, compare, sign and verify functions are parameters. The predicate `Lawful` states the two facts the service relies on: a password matches its own hash, and a signed token verifies to its claims.
- **node_api_authentication** (`VerifyToken`): the `verifyToken` middleware. It answers 401 without a token and 400 for a token that fails verification. Otherwise it stores the claims and hands the request on.
- **node-express-grpc** (`TodoServer`): the gRPC todo server. It is a `Server` class holding the todo list, with its five handlers.
- **express_crash_course** (`MembersRouter`, `UsersRouter`, and `JsNumbers` for `parseInt`): two Express routers over in-memory arrays, each a class holding its list. In the members router, POST and PUT change the list. In the users router only POST does: its PUT never finds a user (see Findings).
- **learn_graphql** (`LibrarySchema`): a schema over two constant arrays of books and authors, with lookups by id and the two relationship resolvers.
- **cypress-yo birthday-app**: the Vuex store of unlocked levels (`BirthdayStore`) and the router guard that admits only the current level (`BirthdayRouter`).
- **unit-test-with-jest** (`JestHelpers`): `useless`, `amazingFunction`, `filterByTerm` and `doSomething`, with the values the live tests in `index.test.js` and `src/index.test.js` expect. The `filterByTerm` test in `src/index.test.js` is commented out; the model still proves the outcome it describes.

Effects the model takes as parameters:

- **Fresh ids** are parameters. The booklist ObjectIds and the todo server's new ids carry a precondition that they are not in use. The members router's uuid has none: it is a string, so no numeric id parameter ever finds it, whatever its value.
- **The clock** (`Date.now()`) is a parameter `now`.
- **`findOne`** picks any matching document.

Behaviour of the booklist service that a reader might not expect:

- `doneRead` yields the book as it was *before* the update (Mongoose's default for `findByIdAndUpdate`).
- The middleware drops the first seven characters of the header without checking that they are `"Bearer "`.
- `login` with a stored user that has no password fails with bcrypt's "data and hash arguments required", not with the wrong-credentials error.
- Any authenticated caller can complete any book. There is no ownership check.
- `addBook` for an authenticated id with no stored user fails on the null user before any write. So a book never names a missing owner. The model proves this as the invariant `OwnersExist`.

## Model

| member | source | states |
|---|---|---|
| BooklistModels.NewUser | booklist/src/models/user.js:3-9 | a new user keeps the given username, email, fullname and password and starts with an empty `books` list |
| BooklistModels.NewBook | booklist/src/models/book.js:3-11 | a new book is done only when `done: true` was given, `start` defaults to the creation time, `end` and `comment` have no default |
| BooklistUtils.GetUserId | booklist/src/utils.js:4-10 | succeeds exactly when the context carries a non-empty userId, returning it; otherwise fails with NotAuthenticated |
| BooklistUtils.Login | booklist/src/utils.js:12-23 | succeeds exactly when a user was found, has a stored password and the password compares; the token signs the user's id and username; unknown user or wrong password give "Wrong email or password", a missing stored password bcrypt's "data and hash arguments required" |
| BooklistUtils.LoginTokenDecodes | booklist/src/utils.js:15-16 | the token of a successful login verifies back to `{ userId, username }` of the user |
| BooklistUtils.LoginAcceptsRegisteredPassword | booklist/src/utils.js:13-16 | a user whose stored password is the hash of `p` logs in with `p` and receives that user and its token |
| BooklistUtils.LoginFailuresIndistinguishable | booklist/src/utils.js:17-22 | a wrong password fails with the same error, and the same message, as an unknown email |
| BooklistAuthentication.Slice | booklist/src/middlewares/authentication.js:9 | `slice(n)` drops exactly the first `n` characters, or everything when the string is shorter |
| BooklistAuthentication.UserIdAfter | booklist/src/middlewares/authentication.js:5-15 | an absent or empty header leaves `req.userId` as it was; a header whose token, after the first seven characters are dropped, verifies sets it to that token's userId; any change comes only from such a header |
| BooklistAuthentication.Authentication | booklist/src/middlewares/authentication.js:4-19 | calls `next()` exactly once on every path and sets `req.userId` to the verified token's userId, leaving it as it was when the header is absent, empty or does not verify |
| BooklistAuthentication.PrefixedTokenAuthenticates | booklist/src/middlewares/authentication.js:9-11 | any seven characters followed by a signed token authenticate as the token's user: the prefix is never compared |
| BooklistAuthentication.BearerTokenAuthenticates | booklist/src/middlewares/authentication.js:5-11 | `"Bearer " + sign(claims)` authenticates as the claims' userId |
| BooklistAuthentication.InvalidTokenLooksAnonymous | booklist/src/middlewares/authentication.js:13-17 | a header whose token fails verification leaves the request exactly as no header, or an empty one, does |
| BooklistSchema.FindById | booklist/src/schemas/schema.js:25 | `findById` yields the stored document exactly when the id is stored, else null |
| BooklistSchema.AddedBook | booklist/src/schemas/schema.js:131-135 | the book `addBook` builds: caller as owner, given title and author, not done, started now, no end or comment |
| BooklistSchema.Completed | booklist/src/schemas/schema.js:149-153 | completion sets done, `end` to now and the comment, and keeps every other field |
| BooklistSchema.AddUserKeepsConsistent | booklist/src/schemas/schema.js:101-109 | storing a fresh user with no books keeps the store invariant (ids as keys, owners exist, no dangling book ids, owner lists agree with `userId`, `end` iff done) |
| BooklistSchema.AddBookKeepsConsistent | booklist/src/schemas/schema.js:128-138 | the two writes of `addBook` together keep the store invariant |
| BooklistSchema.BookWrittenAloneBreaksConsistency | booklist/src/schemas/schema.js:136-138 | after only the book write, the owner's list disagrees with the new book's `userId` |
| BooklistSchema.ListWrittenAloneBreaksConsistency | booklist/src/schemas/schema.js:136-138 | after only the list write, the owner's list names a book that is not stored |
| BooklistSchema.CompleteKeepsConsistent | booklist/src/schemas/schema.js:147-153 | completing a stored book keeps the store invariant |
| BooklistSchema.Database.Users | booklist/src/schemas/schema.js:66-72 | all stored users for an authenticated caller; NotAuthenticated otherwise |
| BooklistSchema.Database.Books | booklist/src/schemas/schema.js:73-79 | all stored books for an authenticated caller; NotAuthenticated otherwise |
| BooklistSchema.Database.CurrentUser | booklist/src/schemas/schema.js:80-86 | the stored user whose id is the caller's, or null; NotAuthenticated for an anonymous caller |
| BooklistSchema.Database.UserBooks | booklist/src/schemas/schema.js:21-29 | one lookup per id of the reloaded user's `books` list, in that order; NotAuthenticated, or a null-dereference error when the parent user is gone |
| BooklistSchema.Database.BookUser | booklist/src/schemas/schema.js:44-51 | the user the reloaded book's `userId` names, or null; NotAuthenticated, or a null-dereference error when the book is gone |
| BooklistSchema.UserBooksRoundTrip | booklist/src/schemas/schema.js:21-51 | in a consistent store, each entry of `User.books` is a stored book owned by the user, and its `Book.user` is that user |
| BooklistSchema.Database.Register | booklist/src/schemas/schema.js:101-109 | stores exactly one new user with the hash of the password; that password then compares against it; the invariant is kept |
| BooklistSchema.Database.Login | booklist/src/schemas/schema.js:117-120 | when some user has the email, the result is the credential check on one such user; no user with the email gives "Wrong email or password"; success yields a stored user with that email whose password compares, and its token; when every user with the email stores the hash of the password, login succeeds and the token verifies to that user |
| BooklistSchema.RegisterThenLogin | booklist/src/schemas/schema.js:101-120 | after registering under an email no one else has, the new user is the only match for it, and its password logs in with a token that verifies to the new user's id and username |
| BooklistSchema.Database.AddBook | booklist/src/schemas/schema.js:128-139 | for a stored caller: the new book is stored and its id appended to the caller's list; an anonymous or missing caller changes nothing; the invariant is kept |
| BooklistSchema.Database.DoneRead | booklist/src/schemas/schema.js:147-154 | any authenticated caller completes any stored book and gets the pre-update document; an unknown id yields null and changes nothing; users never change |
| VerifyToken.Decide | node_api_authentication/routes/verifyToken.js:3-14 | no or empty token: 401 "Access Denied"; token that fails verification: 400 "Invalid Token"; admitted exactly when the token verifies, carrying its claims |
| VerifyToken.VerifyTokenMiddleware | node_api_authentication/routes/verifyToken.js:3-14 | exactly one of the two happens: a response is sent, or `req.user` is set to the claims and `next()` called once |
| TodoServer.FindIndex | node-express-grpc/server/server.js:57 | `findIndex` yields the first position holding the id, and -1 exactly when no todo has it |
| TodoServer.Without | node-express-grpc/server/server.js:70 | the filter keeps exactly the todos with another id, never more than it was given; its length is unchanged exactly when no todo has the id |
| TodoServer.WithoutSplit | node-express-grpc/server/server.js:70 | the filter works todo by todo: filtering a concatenation concatenates the filtered parts, so order and multiplicity are kept |
| TodoServer.FindAppendedFresh | node-express-grpc/server/server.js:49-53 | a todo created under a fresh id is found at the end of the list |
| TodoServer.FindAppendedOther | node-express-grpc/server/server.js:49-57 | creating a todo does not change what `findIndex` finds for any other id |
| TodoServer.Server.constructor | node-express-grpc/server/server.js:18-31 | the server starts with the two todos "Buy milk" and "Buy eggs" |
| TodoServer.Server.GetAll | node-express-grpc/server/server.js:34-36 | the whole current list |
| TodoServer.Server.GetById | node-express-grpc/server/server.js:37-48 | the first todo with the id, or NOT_FOUND (code 5, "Not found") exactly when there is none |
| TodoServer.Server.Create | node-express-grpc/server/server.js:49-54 | appends the request under the fresh id and returns it; it is then found under that id |
| TodoServer.Server.Update | node-express-grpc/server/server.js:55-68 | replaces the first todo with the request's id by the request; NOT_FOUND and no change when there is none |
| TodoServer.Server.Delete | node-express-grpc/server/server.js:69-81 | removes every todo with the id; NOT_FOUND and no change exactly when there is none; afterwards no todo has the id |
| JsNumbers.ParseInt | express_crash_course/routes/api/members.js:13 | `parseInt` of a string with no decimal digit is NaN, and a negative result needs a minus sign |
| JsNumbers.ParseDecimalRoundTrip | express_crash_course/routes/api/members.js:13 | `parseInt` of the decimal digits of `n` is `n`, and of `"-"` followed by them is `-n` |
| MembersRouter.Select | express_crash_course/routes/api/members.js:16 | the filter keeps exactly the members whose id does (or does not) equal the parsed parameter, never more than it was given |
| MembersRouter.SelectSplit | express_crash_course/routes/api/members.js:16 | the filter works member by member: filtering a concatenation concatenates the filtered parts, so order and multiplicity are kept |
| MembersRouter.Patch | express_crash_course/routes/api/members.js:49-50 | a truthy name or email replaces the stored one; the id and status stay |
| MembersRouter.FirstMatch | express_crash_course/routes/api/members.js:46-51 | the position of the first member whose id `===` the parsed parameter: it matches and no earlier member does |
| MembersRouter.FirstMatchUnique | express_crash_course/routes/api/members.js:46-51 | a matching member with no match before it is at `FirstMatch` |
| MembersRouter.PutEffect | express_crash_course/routes/api/members.js:47-54 | after PUT, a member keeps its id and status, and only matching members change |
| MembersRouter.DistinctIdsMatchAtMostOnce | express_crash_course/routes/api/members.js:47-54 | with distinct ids at most one member matches, so PUT sends its reply at most once |
| MembersRouter.PostedMemberNeverFound | express_crash_course/routes/api/members.js:23-36 | a member created by POST (uuid id) never matches a parsed parameter, and appending it changes no lookup |
| MembersRouter.NumericIdFound | express_crash_course/routes/api/members.js:13 | a numeric id written in decimal as the route parameter finds its member |
| MembersRouter.WalkComplete | express_crash_course/routes/api/members.js:47-54 | where the PUT walk stops, the list is what PutEffect describes, and it threw exactly when two or more members match |
| MembersRouter.Router.GetAll | express_crash_course/routes/api/members.js:7-9 | the whole list |
| MembersRouter.Router.GetOne | express_crash_course/routes/api/members.js:12-20 | status 200 with `Select` of the members matching `parseInt(id)`, so exactly those in list order, or 400 "No member with the id of ..." exactly when there is none |
| MembersRouter.Router.Post | express_crash_course/routes/api/members.js:23-38 | a missing or empty name or email: 400 and no change; otherwise the active member with the fresh uuid is appended and the list sent |
| MembersRouter.Router.Put | express_crash_course/routes/api/members.js:42-58 | no match: 400 and no change; otherwise every member is as PutEffect says, the reply is the member at `FirstMatch` patched, and it throws exactly when two or more match |
| MembersRouter.Router.PatchMatching | express_crash_course/routes/api/members.js:47-54 | the `forEach` patches matching members in order until the second match, sends the member at `FirstMatch` patched, and throws at the second |
| MembersRouter.Router.Delete | express_crash_course/routes/api/members.js:62-73 | "Member is deleted" with `Select` of the members not matching, in list order, the list itself unchanged; 404 exactly when none matches |
| UsersRouter.Select | express_crash_course/spaced_repetition/routes/api/users.js:16 | the filter keeps exactly the users whose id equals the parsed parameter, never more than it was given |
| UsersRouter.SelectSplit | express_crash_course/spaced_repetition/routes/api/users.js:16 | the filter works user by user: filtering a concatenation concatenates the filtered parts, so order and multiplicity are kept |
| UsersRouter.RawSelect | express_crash_course/spaced_repetition/routes/api/users.js:40 | PUT's filter keeps only users whose numeric id is `===` the raw string parameter, never more than it was given |
| UsersRouter.RawSelectIsEmpty | express_crash_course/spaced_repetition/routes/api/users.js:40 | PUT's filter, comparing numeric ids with the raw string, is always empty |
| UsersRouter.PositionalIdsDistinct | express_crash_course/spaced_repetition/routes/api/users.js:13-25 | with ids 1, 2, 3, ... the ids are distinct and GET `/:id` returns at most one user |
| UsersRouter.PatchUser | express_crash_course/spaced_repetition/routes/api/users.js:44-45 | a truthy name or email replaces the stored one; the id stays |
| UsersRouter.PutAsWrittenMissesUser | express_crash_course/spaced_repetition/routes/api/users.js:40 | any stored user is found by GET with its decimal id, yet PUT's filter with that id selects nobody |
| UsersRouter.Router.GetAll | express_crash_course/spaced_repetition/routes/api/users.js:7-9 | the whole list |
| UsersRouter.Router.GetOne | express_crash_course/spaced_repetition/routes/api/users.js:12-20 | status 200 with `Select` of the users matching `parseInt(id)`, so exactly those in list order, or "There is no user with id:..." with status 200 exactly when there is none |
| UsersRouter.Router.Post | express_crash_course/spaced_repetition/routes/api/users.js:23-36 | 400 and no change only when both name and email are falsy; otherwise appended with id `length + 1`; ids 1, 2, 3, ... stay so |
| UsersRouter.Router.Put | express_crash_course/spaced_repetition/routes/api/users.js:39-51 | PUT's filter is empty, the list is sent back and no user changes |
| UsersRouter.Router.PutCorrected | express_crash_course/spaced_repetition/routes/api/users.js:39-51 | every user matching `parseInt(id)` takes the truthy name and email, others stay; no match: the not-found message and no change; ids 1, 2, 3, ... stay so |
| LibrarySchema.Find | learn_graphql/schema/schema.js:62-74 | `_.find` by id over books or authors: an element with that id exactly when one exists, and it is the first such element in the array; no id finds nothing |
| LibrarySchema.BooksBy | learn_graphql/schema/schema.js:49-53 | `_.filter` by `authorId`: exactly the books whose `authorId` is the given id, never more than it was given |
| LibrarySchema.BooksBySplit | learn_graphql/schema/schema.js:49-53 | the filter works book by book: filtering a concatenation concatenates the filtered parts, so the books keep their array order and multiplicity |
| LibrarySchema.QueryBook | learn_graphql/schema/schema.js:62-67 | root `book(id)`: the ids "1" to "6" find their book, any other id or none finds nothing |
| LibrarySchema.QueryAuthor | learn_graphql/schema/schema.js:69-74 | root `author(id)`: the ids "1" to "3" find their author, any other id or none finds nothing |
| LibrarySchema.BookAuthor | learn_graphql/schema/schema.js:34-39 | `Book.author`: an author whose id is the book's `authorId`, exactly when one exists |
| LibrarySchema.AuthorBooks | learn_graphql/schema/schema.js:49-53 | `Author.books`: exactly the fixed books whose `authorId` is the author's id |
| LibrarySchema.FixedDataWellFormed | learn_graphql/schema/schema.js:13-26 | the three author ids are distinct and every book's `authorId` names an author |
| LibrarySchema.FindDistinct | learn_graphql/schema/schema.js:37 | with distinct ids, finding an author by its own id yields that author |
| LibrarySchema.AuthorBooksPointBack | learn_graphql/schema/schema.js:34-55 | every book in an author's `books` has that author as its `author` |
| LibrarySchema.FixedAuthorBooksPointBack | learn_graphql/schema/schema.js:13-55 | the same round trip on the fixed data |
| LibrarySchema.FixedBookAuthorExists | learn_graphql/schema/schema.js:34-40 | `Book.author` of every fixed book is an author with the book's `authorId` |
| LibrarySchema.AuthorBooksPartition | learn_graphql/schema/schema.js:49-53 | with distinct author ids and known authors, the authors' `books` lists together hold every book exactly once |
| LibrarySchema.FixedAuthorBooksPartition | learn_graphql/schema/schema.js:13-26 | the three authors' lists partition the six books |
| BirthdayStore.Unlock | cypress-yo/birthday-app/src/store/index.js:17-22 | `newLevels[index] = true` on a copy: sets that level, changes no other, grows the array with holes past its end, and ignores a negative index |
| BirthdayStore.UnlockIdempotent | cypress-yo/birthday-app/src/store/index.js:17-22 | unlocking the same level twice is unlocking it once |
| BirthdayStore.UnlockMonotone | cypress-yo/birthday-app/src/store/index.js:17-22 | an unlocked level stays unlocked |
| BirthdayStore.Store.constructor | cypress-yo/birthday-app/src/store/index.js:12-15 | the first of six levels unlocked, and an empty hope |
| BirthdayStore.Store.SetLevels | cypress-yo/birthday-app/src/store/index.js:17-22 | levels become Unlock of the old levels; hope unchanged |
| BirthdayStore.Store.SetHope | cypress-yo/birthday-app/src/store/index.js:23-25 | hope replaced; levels unchanged |
| BirthdayStore.Store.Reset | cypress-yo/birthday-app/src/store/index.js:26-29 | back to the initial state from any state |
| BirthdayStore.Store.SetLevelsAction | cypress-yo/birthday-app/src/store/index.js:32-34 | same effect as the `setLevels` mutation with the payload's index |
| BirthdayStore.Store.SetHopeAction | cypress-yo/birthday-app/src/store/index.js:35-37 | same effect as the `setHope` mutation with the payload's hope |
| BirthdayStore.Store.ResetAction | cypress-yo/birthday-app/src/store/index.js:38-40 | same effect as the `reset` mutation |
| BirthdayRouter.FirstLocked | cypress-yo/birthday-app/src/router/index.js:50 | `findIndex(=== false)`: the first locked level, or -1 exactly when none is locked |
| BirthdayRouter.Guard | cypress-yo/birthday-app/src/router/index.js:48-58 | proceeds exactly to the route before the first locked level and redirects anything else there; fails when that route does not exist |
| BirthdayRouter.RedirectConverges | cypress-yo/birthday-app/src/router/index.js:53-57 | the guard admits the route it redirects to, so a redirect settles in one step |
| BirthdayRouter.InitialAdmitsOnlyWelcome | cypress-yo/birthday-app/src/router/index.js:48-58 | with the initial levels only 'Welcome' is admitted and every other route redirects there |
| BirthdayRouter.ProgressAdmits | cypress-yo/birthday-app/src/router/index.js:48-58 | with levels 0 to k-1 unlocked (k = 1..5) the guard admits exactly the k-th route |
| BirthdayRouter.UnlockProgresses | cypress-yo/birthday-app/src/store/index.js:17-22 | unlocking level k after levels 0 to k-1 moves the progress to k + 1 |
| BirthdayRouter.InitialIsProgressOne | cypress-yo/birthday-app/src/store/index.js:13 | the initial levels are the first step of the progress |
| BirthdayRouter.GuardFailsOutsideProgress | cypress-yo/birthday-app/src/router/index.js:50-53 | with every level unlocked, or the first one locked, the guard reads a route that does not exist and fails |
| JestHelpers.Useless | unit-test-with-jest/index.js:1-4 | `useless()` returns 21 |
| JestHelpers.AmazingFunction | unit-test-with-jest/index.js:6-8 | the result exceeds `num` by what the callback returns, so it is above `num` exactly when the callback returns a positive number |
| JestHelpers.DoSomething | unit-test-with-jest/src/index.js:17-19 | the result is the callback applied to the two arguments |
| JestHelpers.FilterByTerm | unit-test-with-jest/index.js:10-15 | keeps exactly the entries whose url contains the term, ignoring case, and never more than it was given |
| JestHelpers.FilterSplit | unit-test-with-jest/index.js:12-14 | `filter` works entry by entry: filtering a concatenation concatenates the filtered parts, so order and the number of copies of each kept entry are those of the input |
| JestHelpers.FilterIsSubsequence | unit-test-with-jest/index.js:12-14 | the kept entries are in their original order |
| JestHelpers.FilterIdempotent | unit-test-with-jest/index.js:10-15 | filtering the result again with the same term changes nothing |
| JestHelpers.ContainsIgnoresTermCase | unit-test-with-jest/index.js:11 | the `i` flag: terms equal up to case match the same urls |
| JestHelpers.FilterIgnoresTermCase | unit-test-with-jest/index.js:10-15 | terms equal up to case filter alike |
| JestHelpers.FilterByTermTest | unit-test-with-jest/src/index.test.js:15-28 | the three entries of the commented-out test, filtered by "link" or "LINK", leave only entry 3, as that test expects |
| JestHelpers.UselessAndAmazingFunctionTests | unit-test-with-jest/index.test.js:3-13 | `useless()` is 21 and `amazingFunction(21, useless)` is 42 |
| JestHelpers.DoSomethingTest | unit-test-with-jest/src/index.test.js:59-65 | `doSomething(1, 1, mock)` with the mock `() => x + y` for `x = y = 1` is 2, as the test expects |

## Findings

| source | as written | input that shows it | evidently intended | confidence | as-written member | corrected member |
|---|---|---|---|---|---|---|
| express_crash_course/spaced_repetition/routes/api/users.js:40 | PUT filters with `user.id === req.params.id`, comparing a numeric id with the string parameter; the filter is always empty, and the update goes to a throw-away array | users `[{ id: 1, name: "Ann" }]`, PUT `/1` with name "Bob": the list comes back with "Ann" | compare with `parseInt(req.params.id)` as GET does, and update the matching user | not executed; follows from `===` never equating a number and a string | UsersRouter.PutAsWrittenMissesUser | UsersRouter.Router.PutCorrected |

## Left out

- Transport, bootstrap and configuration are not modelled: Express and gRPC servers, listening ports, `dotenv`, the GraphQL HTTP endpoint, proto loading, logging (`console.log`).
- bcrypt and jsonwebtoken internals (salting, token format, expiry) are not modelled. Their functions are parameters. Only the two facts in `Lawful` are assumed, and only where a lemma requires it.
- Mongoose promise timing and concurrency are not modelled. The booklist resolvers are sequential. The interleaving of the un-awaited `user.save()` with `book.save()` in `addBook` is not modelled. The model performs the book write first and proves that either write alone breaks the store invariant.
- The order of `find({})` results is not modelled: the collections are maps.
- BooklistSchema.Database.UserBooks: the per-id lookups are modelled in list order. The concurrency of the individual fetches is not modelled.
- BooklistSchema.Database.DoneRead: a `comment` left out of the request is modelled as clearing the stored comment. Mongoose might instead skip an undefined field in the update.
- The `DateTime` scalar's `Date.parse` is not modelled. Times are integers.
- The booklist `types.js`, `query.js` and `mutation.js` drafts are not modelled: they are not used by the schema.
- The initial contents of `Members.js` and `Users.js` are not part of this model. The router constructors take the initial list as a parameter.
- JsNumbers.ParseInt: Unicode whitespace beyond the characters listed in `IsSpace` is not modelled. Loss of precision for digit strings beyond 2^53 is not modelled.
- BooklistSchema.Database.DoneRead: ids are taken to be well-formed ObjectId strings. Mongoose's CastError for a malformed `bookId` is not modelled.
- JestHelpers.AmazingFunction: `num + callback()` is modelled over integers. JavaScript's floating-point addition and string concatenation, for non-integer or string operands, are not modelled.
- JestHelpers.FilterByTerm treats the search term as literal text. Regular-expression metacharacters in the term are not modelled. Case folding is ASCII only.
- The jest mock-function tests (`jest.fn`, call counting) are not modelled, since they test Jest itself. `doAdd`, `doSubtract`, `doMultiply` and `doDivide` are not modelled: they delegate to `math.js`, which is not part of this model.
- The persistence plugin of the birthday store (vuex-persist, localStorage) is not modelled.
- The root queries `books` and `authors` of learn_graphql, which return the constant arrays, are not modelled as separate members: they are the constants `Books` and `Authors`.
- The router guard's `from` argument is not modelled: it is unused.

=== FILE: birthday_router.dfy ===
/**
 * The birthday app's router guard: before every navigation it finds the first
 * locked level and admits only the route just before it, redirecting anything
 * else there.
 */
module BirthdayRouter {
  import opened Wrappers
  import opened BirthdayStore

  datatype Route = Route(path: string, name: string)

  const Routes: seq<Route> := [
    Route("/", "Welcome"),
    Route("/level-1", "Level1"),
    Route("/level-2", "Level2"),
    Route("/level-3", "Level3"),
    Route("/congratulation", "Congratulation")
  ]

  /** What the guard does with a navigation: `next()` or `next({ name })`. */
  datatype Decision = Proceed | Redirect(name: string)

  /** The guard's failure: `routes[foundIndex - 1]` is undefined and reading its name throws. */
  datatype GuardError = NoRouteBeforeFirstLocked

  /** `levels.findIndex(element => element === false)`. */
  function FirstLocked(levels: seq<Slot>): (k: int)
    ensures -1 <= k < |levels|
    ensures k == -1 <==> forall i :: 0 <= i < |levels| ==> levels[i] != Flag(false)
    ensures k >= 0 ==> levels[k] == Flag(false) && forall i :: 0 <= i < k ==> levels[i] != Flag(false)
  {
    if |levels| == 0 then -1
    else if levels[0] == Flag(false) then 0
    else
      var k := FirstLocked(levels[1..]);
      assert forall i :: 1 <= i < |levels| ==> levels[i] == levels[1..][i - 1];
      if k == -1 then -1 else k + 1
  }

  /** The `beforeEach` guard for a navigation to the route named `to` (None: no name). */
  function Guard(levels: seq<Slot>, to: Option<string>): (r: Result<Decision, GuardError>)
    ensures r.Ok? <==> 1 <= FirstLocked(levels) <= |Routes|
    ensures r.Ok? ==> (r.value == Proceed <==> to == Some(Routes[FirstLocked(levels) - 1].name))
    ensures r.Ok? && r.value.Redirect? ==> r.value.name == Routes[FirstLocked(levels) - 1].name
  {
    var foundIndex := FirstLocked(levels);
    if 0 <= foundIndex - 1 < |Routes| then
      var foundRoute := Routes[foundIndex - 1];
      if to == Some(foundRoute.name) then Ok(Proceed) else Ok(Redirect(foundRoute.name))
    else Err(NoRouteBeforeFirstLocked)
  }

  /** A redirect lands on a route the guard then admits: redirection settles in one step. */
  lemma RedirectConverges(levels: seq<Slot>, to: Option<string>)
    requires Guard(levels, to).Ok? && Guard(levels, to).value.Redirect?
    ensures Guard(levels, Some(Guard(levels, to).value.name)) == Ok(Proceed)
  {
  }

  /** With the initial levels the only admitted destination is 'Welcome'. */
  lemma InitialAdmitsOnlyWelcome(to: Option<string>)
    ensures Guard(InitialLevels, to) == if to == Some("Welcome") then Ok(Proceed) else Ok(Redirect("Welcome"))
  {
    assert FirstLocked(InitialLevels) == 1 by {
      assert InitialLevels[1..] == [Flag(false), Flag(false), Flag(false), Flag(false), Flag(false)];
    }
  }

  /** The levels after unlocking the first `k` of six in order. */
  function Progress(k: nat): (levels: seq<Slot>)
    requires k <= 6
    ensures |levels| == 6
  {
    seq(6, i => Flag(i < k))
  }

  /**
   * After unlocking levels 0 .. k-1 (k from 1 to 5), the guard admits exactly the
   * k-th route: 'Welcome' for k = 1 up to 'Congratulation' for k = 5.
   */
  lemma {:induction false} ProgressAdmits(k: nat, to: Option<string>)
    requires 1 <= k <= 5
    ensures Guard(Progress(k), to) ==
              if to == Some(Routes[k - 1].name) then Ok(Proceed) else Ok(Redirect(Routes[k - 1].name))
  {
    var levels := Progress(k);
    assert levels[k] == Flag(false);
    assert forall i :: 0 <= i < k ==> levels[i] == Flag(true);
  }

  /** Unlocking level k (1 to 5) once levels 0 .. k-1 are unlocked is progressing to k + 1. */
  lemma UnlockProgresses(k: nat)
    requires 1 <= k <= 5
    ensures Unlock(Progress(k), k) == Progress(k + 1)
  {
  }

  /** The initial levels are the first step of the progress. */
  lemma InitialIsProgressOne()
    ensures InitialLevels == Progress(1)
  {
  }

  /** All six levels unlocked, or the first one locked: the guard throws. */
  lemma GuardFailsOutsideProgress(levels: seq<Slot>, to: Option<string>)
    requires |levels| > 0 && (levels[0] == Flag(false) || forall i :: 0 <= i < |levels| ==> levels[i] != Flag(false))
    ensures Guard(levels, to) == Err(NoRouteBeforeFirstLocked)
  {
  }
}

=== FILE: birthday_store.dfy ===
/**
 * The Vuex store of the birthday app: which levels are unlocked, and the player's
 * `hope` text. Mutations replace the state fields; actions commit the mutation of
 * the same name with the field of their payload.
 */
module BirthdayStore {

  /**
   * One element of the `levels` array: a boolean, or `undefined` where an assignment
   * past the end grew the array (`undefined` is never `=== false`).
   */
  datatype Slot = Undefined | Flag(unlocked: bool)

  const InitialLevels: seq<Slot> :=
    [Flag(true), Flag(false), Flag(false), Flag(false), Flag(false), Flag(false)]

  /**
   * The `levels` array after `newLevels[index] = true` on a copy: an index inside the
   * array is set; one past the end grows the array with `undefined` up to it; a
   * negative index becomes a property, not an element, and no element changes.
   */
  function Unlock(levels: seq<Slot>, index: int): (r: seq<Slot>)
    ensures 0 <= index < |levels| ==> |r| == |levels|
    ensures index < 0 ==> r == levels
    ensures index >= |levels| ==> |r| == index + 1
    ensures index >= 0 ==> r[index] == Flag(true)
    ensures forall k :: 0 <= k < |levels| && k != index ==> r[k] == levels[k]
    ensures forall k :: |levels| <= k < |r| - 1 ==> r[k] == Undefined
  {
    if index < 0 then levels
    else if index < |levels| then levels[index := Flag(true)]
    else levels + seq(index - |levels|, _ => Undefined) + [Flag(true)]
  }

  /** Unlocking twice is unlocking once. */
  lemma UnlockIdempotent(levels: seq<Slot>, index: int)
    ensures Unlock(Unlock(levels, index), index) == Unlock(levels, index)
  {
  }

  /** Unlocking never locks: an unlocked level stays unlocked. */
  lemma UnlockMonotone(levels: seq<Slot>, index: int, k: int)
    requires 0 <= k < |levels| && levels[k] == Flag(true)
    ensures Unlock(levels, index)[k] == Flag(true)
  {
  }

  /** The store's state and its mutations and actions. */
  class Store {
    var levels: seq<Slot>
    var hope: string

    constructor ()
      ensures levels == InitialLevels && hope == ""
    {
      levels := InitialLevels;
      hope := "";
    }

    /** Mutation `setLevels`: unlocks the level at `index`; `hope` is untouched. */
    method SetLevels(index: int)
      modifies this
      ensures levels == Unlock(old(levels), index) && hope == old(hope)
    {
      var newLevels := levels;
      newLevels := Unlock(newLevels, index);
      levels := newLevels;
    }

    /** Mutation `setHope`: sets `hope`; `levels` is untouched. */
    method SetHope(hope: string)
      modifies this
      ensures this.hope == hope && levels == old(levels)
    {
      this.hope := hope;
    }

    /** Mutation `reset`: back to the initial state, from any state. */
    method Reset()
      modifies this
      ensures levels == InitialLevels && hope == ""
    {
      levels := InitialLevels;
      hope := "";
    }

    /** Action `setLevels`: commits `setLevels` with `payload.index`. */
    method SetLevelsAction(payload: LevelPayload)
      modifies this
      ensures levels == Unlock(old(levels), payload.index) && hope == old(hope)
    {
      SetLevels(payload.index);
    }

    /** Action `setHope`: commits `setHope` with `payload.hope`. */
    method SetHopeAction(payload: HopePayload)
      modifies this
      ensures hope == payload.hope && levels == old(levels)
    {
      SetHope(payload.hope);
    }

    /** Action `reset`: commits `reset`. */
    method ResetAction()
      modifies this
      ensures levels == InitialLevels && hope == ""
    {
      Reset();
    }
  }

  datatype LevelPayload = LevelPayload(index: int)
  datatype HopePayload = HopePayload(hope: string)
}

=== FILE: booklist_authentication.dfy ===
/**
 * The booklist request middleware: reads the Authorization header, drops its first
 * seven characters, verifies the rest as a token and, on success, records the
 * token's userId on the request. It never rejects a request.
 */
module BooklistAuthentication {
  import opened Wrappers
  import opened BooklistModels
  import opened BooklistCrypto

  /** The part of an Express request the middleware reads and writes. */
  class Request {
    /** The `Authorization` header, absent when the client sent none. */
    const authorization: Option<string>
    /** `req.userId`, copied into the GraphQL context downstream. */
    var userId: Option<Id>
    /** How many times the middleware has handed the request on (`next()`). */
    var nextCalls: nat

    constructor (authorization: Option<string>)
      ensures this.authorization == authorization
      ensures userId == None && nextCalls == 0
    {
      this.authorization := authorization;
      userId := None;
      nextCalls := 0;
    }
  }

  /** JavaScript's `s.slice(n)` for a non-negative `n`. */
  function Slice(s: string, n: nat): (r: string)
    ensures |r| == if n <= |s| then |s| - n else 0
    ensures n <= |s| ==> s == s[..n] + r
  {
    if n <= |s| then s[n..] else ""
  }

  /**
   * The userId the request carries once the middleware has run, starting from `before`:
   * the verified token's userId, or `before` when the header is absent, empty or bad.
   */
  function UserIdAfter(header: Option<string>, crypto: Crypto, before: Option<Id>): (r: Option<Id>)
    ensures !Truthy(header) ==> r == before
    ensures Truthy(header) && crypto.verify(Slice(header.value, 7)).Some? ==>
              r == Some(crypto.verify(Slice(header.value, 7)).value.userId)
    ensures r != before ==>
              Truthy(header) && crypto.verify(Slice(header.value, 7)).Some? &&
              r == Some(crypto.verify(Slice(header.value, 7)).value.userId)
  {
    if Truthy(header) then
      match crypto.verify(Slice(header.value, 7))
      case Some(payload) => Some(payload.userId)
      case None => before
    else before
  }

  /** The middleware: one `next()` on every path, and `req.userId` as `UserIdAfter` says. */
  method Authentication(req: Request, crypto: Crypto)
    modifies req
    ensures req.nextCalls == old(req.nextCalls) + 1
    ensures req.userId == UserIdAfter(req.authorization, crypto, old(req.userId))
  {
    var token := if req.authorization.Some? then req.authorization.value else "";
    if token != "" {
      token := Slice(token, 7);
      var payload := crypto.verify(token);
      match payload
      case Some(p) =>
        req.userId := Some(p.userId);
        req.nextCalls := req.nextCalls + 1;
      case None =>
        req.nextCalls := req.nextCalls + 1;
    } else {
      req.nextCalls := req.nextCalls + 1;
    }
  }

  /**
   * Any seven characters followed by a signed token authenticate as the token's user:
   * the prefix is dropped without being compared with "Bearer ".
   */
  lemma {:induction false} PrefixedTokenAuthenticates(prefix: string, k: Claims, crypto: Crypto, before: Option<Id>)
    requires Lawful(crypto)
    requires |prefix| == 7
    ensures UserIdAfter(Some(prefix + crypto.sign(k)), crypto, before) == Some(k.userId)
  {
    var header := prefix + crypto.sign(k);
    assert Slice(header, 7) == crypto.sign(k) by {
      assert header[7..] == crypto.sign(k);
    }
  }

  /** The header "Bearer " + sign(claims) authenticates as the claims' userId. */
  lemma BearerTokenAuthenticates(k: Claims, crypto: Crypto)
    requires Lawful(crypto)
    ensures UserIdAfter(Some("Bearer " + crypto.sign(k)), crypto, None) == Some(k.userId)
  {
    PrefixedTokenAuthenticates("Bearer ", k, crypto, None);
  }

  /** Downstream, a header whose token fails verification looks exactly like no header. */
  lemma InvalidTokenLooksAnonymous(header: string, crypto: Crypto, before: Option<Id>)
    requires crypto.verify(Slice(header, 7)).None?
    ensures UserIdAfter(Some(header), crypto, before) == UserIdAfter(None, crypto, before)
    ensures UserIdAfter(Some(header), crypto, before) == UserIdAfter(Some(""), crypto, before)
  {
  }
}

=== FILE: booklist_crypto.dfy ===
/**
 * The cryptographic collaborators of the booklist service (bcrypt and
 * jsonwebtoken), kept uninterpreted: they are function values supplied by the
 * caller, and `Lawful` states the only facts the service relies on.
 */
module BooklistCrypto {
  import opened Wrappers

  /** The claims a booklist token carries: `{ userId, username }`. */
  datatype Claims = Claims(userId: string, username: Option<string>)

  /**
   * `hash` is bcrypt's hashSync with the configured salt, `compare` its compareSync;
   * `sign` and `verify` are jsonwebtoken's, with the process-wide secret key.
   * `verify` yields None where jsonwebtoken throws (bad signature, structure or expiry).
   */
  datatype Crypto = Crypto(
    hash: string -> string,
    compare: (string, string) -> bool,
    sign: Claims -> string,
    verify: string -> Option<Claims>)

  /** A password checks against its own hash, and a signed token verifies to its claims. */
  ghost predicate Lawful(c: Crypto)
  {
    (forall p :: c.compare(p, c.hash(p))) &&
    (forall k :: c.verify(c.sign(k)) == Some(k))
  }
}

=== FILE: booklist_models.dfy ===
/**
 * The two Mongoose models of the booklist service: a User document and a Book
 * document, with the defaults the schemas declare. No field of either schema is
 * marked required, so every field a caller may leave out is an `Option`.
 */
module BooklistModels {
  import opened Wrappers

  /** A document id (the string form of a Mongo ObjectId). */
  type Id = string

  /** A timestamp in milliseconds, as `Date.now()` returns it. */
  type Time = int

  /** A stored User: `books` holds the ids of the user's books, in insertion order. */
  datatype User = User(
    id: Id,
    username: Option<string>,
    email: Option<string>,
    fullname: Option<string>,
    password: Option<string>,
    books: seq<Id>)

  /** A stored Book. `start` always has a value (it has a default); `end` and `comment` do not. */
  datatype Book = Book(
    id: Id,
    userId: Option<Id>,
    done: bool,
    title: Option<string>,
    author: Option<string>,
    start: Time,
    end: Option<Time>,
    comment: Option<string>)

  /** The fields handed to `new User({...})`. */
  datatype UserFields = UserFields(
    username: Option<string>,
    email: Option<string>,
    fullname: Option<string>,
    password: Option<string>)

  /** The fields handed to `new Book({...})`; an absent field takes the schema default, if any. */
  datatype BookFields = BookFields(
    userId: Option<Id>,
    done: Option<bool>,
    title: Option<string>,
    author: Option<string>,
    start: Option<Time>,
    end: Option<Time>,
    comment: Option<string>)

  /** A new User document: the given fields as they are, and an empty `books` array. */
  function NewUser(id: Id, f: UserFields): (u: User)
    ensures u.id == id && u.books == []
    ensures u.username == f.username && u.email == f.email
    ensures u.fullname == f.fullname && u.password == f.password
  {
    User(id, f.username, f.email, f.fullname, f.password, [])
  }

  /**
   * A new Book document created at time `now`: `done` defaults to false and `start`
   * to the creation time; `end` and `comment` have no default and stay as given.
   */
  function NewBook(id: Id, f: BookFields, now: Time): (b: Book)
    ensures b.id == id && b.userId == f.userId
    ensures b.title == f.title && b.author == f.author
    ensures b.done <==> f.done == Some(true)
    ensures b.start == (if f.start.Some? then f.start.value else now)
    ensures b.end == f.end && b.comment == f.comment
  {
    Book(id, f.userId,
         if f.done.Some? then f.done.value else false,
         f.title, f.author,
         if f.start.Some? then f.start.value else now,
         f.end, f.comment)
  }
}

=== FILE: booklist_schema.dfy ===
/**
 * The booklist GraphQL schema: root queries, mutations and the two relationship
 * resolvers, over a record store holding the User and Book collections.
 */
module BooklistSchema {
  import opened Wrappers
  import opened BooklistModels
  import opened BooklistCrypto
  import opened BooklistUtils

  /** `findById`: the document stored under `id`, or null. */
  function FindById<T>(collection: map<Id, T>, id: Id): (r: Option<T>)
    ensures r.Some? <==> id in collection
    ensures r.Some? ==> r.value == collection[id]
  {
    if id in collection then Some(collection[id]) else None
  }

  /** Every document is stored under its own id. */
  ghost predicate KeyedById(users: map<Id, User>, books: map<Id, Book>)
  {
    (forall id :: id in users ==> users[id].id == id) &&
    (forall id :: id in books ==> books[id].id == id)
  }

  /** Every book names an owner that exists. */
  ghost predicate OwnersExist(users: map<Id, User>, books: map<Id, Book>)
  {
    forall id :: id in books ==> books[id].userId.Some? && books[id].userId.value in users
  }

  /** Every id in a user's `books` list names a stored book. */
  ghost predicate NoDanglingBookIds(users: map<Id, User>, books: map<Id, Book>)
  {
    forall uid, i :: uid in users && 0 <= i < |users[uid].books| ==> users[uid].books[i] in books
  }

  /** A user's `books` list holds exactly the books whose `userId` is that user. */
  ghost predicate BackReferencesAgree(users: map<Id, User>, books: map<Id, Book>)
  {
    forall uid, bid :: uid in users && bid in books ==>
      (bid in users[uid].books <==> books[bid].userId == Some(uid))
  }

  /** A book has an `end` exactly when it is `done`. */
  ghost predicate EndIffDone(books: map<Id, Book>)
  {
    forall id :: id in books ==> (books[id].end.Some? <==> books[id].done)
  }

  /** The invariant of the store that the mutations keep. */
  ghost predicate Consistent(users: map<Id, User>, books: map<Id, Book>)
  {
    KeyedById(users, books) && OwnersExist(users, books) &&
    NoDanglingBookIds(users, books) && BackReferencesAgree(users, books) &&
    EndIffDone(books)
  }

  /** The book `addBook` creates for `owner` at time `now`. */
  function AddedBook(id: Id, owner: Id, title: string, author: string, now: Time): (b: Book)
    ensures b.id == id && b.userId == Some(owner)
    ensures b.title == Some(title) && b.author == Some(author)
    ensures !b.done && b.start == now && b.end.None? && b.comment.None?
  {
    NewBook(id, BookFields(Some(owner), None, Some(title), Some(author), None, None, None), now)
  }

  /** The book `b` once `doneRead` has completed it at time `now`. */
  function Completed(b: Book, comment: Option<string>, now: Time): (c: Book)
    ensures c.done && c.end == Some(now) && c.comment == comment
    ensures c.id == b.id && c.userId == b.userId && c.title == b.title
    ensures c.author == b.author && c.start == b.start
  {
    b.(done := true, end := Some(now), comment := comment)
  }

  /** Registering a user under a fresh id keeps the store consistent. */
  lemma {:induction false} AddUserKeepsConsistent(users: map<Id, User>, books: map<Id, Book>, u: User)
    requires Consistent(users, books)
    requires u.id !in users && u.books == []
    ensures Consistent(users[u.id := u], books)
  {
    var users' := users[u.id := u];
    forall uid, bid | uid in users' && bid in books
      ensures bid in users'[uid].books <==> books[bid].userId == Some(uid)
    {
      if uid == u.id {
        assert books[bid].userId.value in users;
      }
    }
  }

  /** Both writes of `addBook` together keep the store consistent. */
  lemma {:induction false} AddBookKeepsConsistent(users: map<Id, User>, books: map<Id, Book>, owner: Id, b: Book)
    requires Consistent(users, books)
    requires owner in users && b.id !in books
    requires b.userId == Some(owner) && !b.done && b.end.None?
    ensures Consistent(users[owner := users[owner].(books := users[owner].books + [b.id])], books[b.id := b])
  {
    var u := users[owner];
    var users' := users[owner := u.(books := u.books + [b.id])];
    var books' := books[b.id := b];
    forall uid, i | uid in users' && 0 <= i < |users'[uid].books|
      ensures users'[uid].books[i] in books'
    {
      if uid == owner && i < |u.books| {
        assert users'[uid].books[i] == u.books[i];
      }
    }
    forall uid, bid | uid in users' && bid in books'
      ensures bid in users'[uid].books <==> books'[bid].userId == Some(uid)
    {
      if bid != b.id && uid == owner {
        assert bid in users'[uid].books <==> bid in u.books;
      }
    }
  }

  /** Between the two writes of `addBook`, the new book is missing from its owner's list. */
  lemma BookWrittenAloneBreaksConsistency(users: map<Id, User>, books: map<Id, Book>, owner: Id, b: Book)
    requires Consistent(users, books)
    requires owner in users && b.id !in books && b.userId == Some(owner)
    ensures !BackReferencesAgree(users, books[b.id := b])
  {
    var l := users[owner].books;
    forall i | 0 <= i < |l| ensures l[i] != b.id {
      assert l[i] in books;
    }
    var books' := books[b.id := b];
    assert b.id in books' && books'[b.id].userId == Some(owner) && b.id !in l;
  }

  /** Written the other way round, the owner's list names a book that is not stored yet. */
  lemma ListWrittenAloneBreaksConsistency(users: map<Id, User>, books: map<Id, Book>, owner: Id, b: Book)
    requires owner in users && b.id !in books
    ensures !NoDanglingBookIds(users[owner := users[owner].(books := users[owner].books + [b.id])], books)
  {
    var users' := users[owner := users[owner].(books := users[owner].books + [b.id])];
    var l := users'[owner].books;
    assert l[|l| - 1] == b.id && b.id !in books;
  }

  /** Completing a stored book keeps the store consistent. */
  lemma CompleteKeepsConsistent(users: map<Id, User>, books: map<Id, Book>, id: Id, comment: Option<string>, now: Time)
    requires Consistent(users, books)
    requires id in books
    ensures Consistent(users, books[id := Completed(books[id], comment, now)])
  {
  }

  /** The record store: the two collections, changed in place by the mutations. */
  class Database {
    var users: map<Id, User>
    var books: map<Id, Book>

    ghost predicate Valid()
      reads this
    {
      Consistent(users, books)
    }

    constructor ()
      ensures Valid() && users == map[] && books == map[]
    {
      users := map[];
      books := map[];
    }

    /** Root query `users`: every stored user, for an authenticated caller only. */
    function Users(ctx: Context): (r: Result<map<Id, User>, Error>)
      reads this
      ensures r.Ok? <==> Truthy(ctx.userId)
      ensures r.Ok? ==> r.value == users
      ensures r.Err? ==> r.error == NotAuthenticated
    {
      var _ :- GetUserId(ctx);
      Ok(users)
    }

    /** Root query `books`: every stored book, for an authenticated caller only. */
    function Books(ctx: Context): (r: Result<map<Id, Book>, Error>)
      reads this
      ensures r.Ok? <==> Truthy(ctx.userId)
      ensures r.Ok? ==> r.value == books
      ensures r.Err? ==> r.error == NotAuthenticated
    {
      var _ :- GetUserId(ctx);
      Ok(books)
    }

    /** Root query `user`: the stored user whose id is the caller's, or null. */
    function CurrentUser(ctx: Context): (r: Result<Option<User>, Error>)
      reads this
      ensures r.Err? <==> !Truthy(ctx.userId)
      ensures r.Err? ==> r.error == NotAuthenticated
      ensures r.Ok? ==> (r.value.Some? <==> ctx.userId.value in users)
      ensures r.Ok? && r.value.Some? ==> r.value.value == users[ctx.userId.value]
    {
      var uid :- GetUserId(ctx);
      Ok(FindById(users, uid))
    }

    /**
     * `User.books`: reloads the parent user and looks up each id of its `books` list,
     * one result per id, in the list's order (null for an id with no book).
     */
    function UserBooks(ctx: Context, parent: User): (r: Result<seq<Option<Book>>, Error>)
      reads this
      ensures !Truthy(ctx.userId) ==> r == Err(NotAuthenticated)
      ensures Truthy(ctx.userId) && parent.id !in users ==> r == Err(NullDereference)
      ensures r.Ok? <==> Truthy(ctx.userId) && parent.id in users
      ensures r.Ok? ==> |r.value| == |users[parent.id].books|
      ensures r.Ok? ==> forall i :: 0 <= i < |r.value| ==>
                r.value[i] == FindById(books, users[parent.id].books[i])
    {
      var _ :- GetUserId(ctx);
      match FindById(users, parent.id)
      case None => Err(NullDereference)
      case Some(user) =>
        Ok(seq(|user.books|, i requires 0 <= i < |user.books| reads this => FindById(books, user.books[i])))
    }

    /** `Book.user`: reloads the parent book and looks up the user its `userId` names. */
    function BookUser(ctx: Context, parent: Book): (r: Result<Option<User>, Error>)
      reads this
      ensures !Truthy(ctx.userId) ==> r == Err(NotAuthenticated)
      ensures r.Ok? <==> Truthy(ctx.userId) && parent.id in books
      ensures r.Ok? ==> (r.value.Some? <==>
                books[parent.id].userId.Some? && books[parent.id].userId.value in users)
      ensures r.Ok? && r.value.Some? ==> r.value.value == users[books[parent.id].userId.value]
    {
      var _ :- GetUserId(ctx);
      match FindById(books, parent.id)
      case None => Err(NullDereference)
      case Some(book) =>
        Ok(if book.userId.Some? then FindById(users, book.userId.value) else None)
    }

    /**
     * Mutation `register`: stores a new user under the fresh id `id` with the hash of
     * the password, never the password itself. No check for a duplicate email.
     */
    method Register(username: string, email: string, password: string, fullname: Option<string>,
                    id: Id, crypto: Crypto) returns (r: User)
      requires Valid() && id !in users
      modifies this
      ensures Valid()
      ensures r == NewUser(id, UserFields(Some(username), Some(email), fullname, Some(crypto.hash(password))))
      ensures users == old(users)[id := r] && books == old(books)
      ensures Lawful(crypto) ==> crypto.compare(password, r.password.value)
    {
      r := NewUser(id, UserFields(Some(username), Some(email), fullname, Some(crypto.hash(password))));
      AddUserKeepsConsistent(users, books, r);
      users := users[id := r];
    }

    /**
     * Mutation `login`: `findOne` picks some user with the email (any one of several, as
     * emails are not unique), then the credential check decides.
     */
    method Login(email: string, password: string, crypto: Crypto) returns (r: Result<AuthPayload, Error>)
      requires Valid()
      ensures (forall id :: id in users ==> users[id].email != Some(email)) ==> r == Err(WrongEmailOrPassword)
      ensures r.Ok? ==> r.value.user.id in users && users[r.value.user.id] == r.value.user
      ensures r.Ok? ==> r.value.user.email == Some(email)
      ensures r.Ok? ==> r.value.user.password.Some? && crypto.compare(password, r.value.user.password.value)
      ensures r.Ok? ==> r.value.token == crypto.sign(Claims(r.value.user.id, r.value.user.username))
      ensures r.Err? ==> r.error == WrongEmailOrPassword || r.error == DataAndHashRequired
      ensures (exists id :: id in users && users[id].email == Some(email)) ==>
                exists id :: id in users && users[id].email == Some(email) &&
                             r == BooklistUtils.Login(Some(users[id]), password, crypto)
      ensures Lawful(crypto) && (exists id :: id in users && users[id].email == Some(email)) &&
              (forall id :: id in users && users[id].email == Some(email) ==>
                 users[id].password == Some(crypto.hash(password))) ==>
                r.Ok? && crypto.verify(r.value.token) == Some(Claims(r.value.user.id, r.value.user.username))
    {
      var found: Option<User> := None;
      if exists id :: id in users && users[id].email == Some(email) {
        var id :| id in users && users[id].email == Some(email);
        found := Some(users[id]);
        if Lawful(crypto) && users[id].password == Some(crypto.hash(password)) {
          LoginAcceptsRegisteredPassword(users[id], password, crypto);
        }
      }
      r := BooklistUtils.Login(found, password, crypto);
    }
  
    /**
     * Mutation `addBook`: for an authenticated caller whose user exists, two writes in
     * sequence: the new book under the fresh id `bookId`, then the owner's `books` list
     * with that id appended. An anonymous caller, or one whose user is missing (the
     * source then reads `books` of null), changes nothing.
     */
    method AddBook(ctx: Context, title: string, author: string, bookId: Id, now: Time)
      returns (r: Result<Book, Error>)
      requires Valid() && bookId !in books
      modifies this
      ensures Valid()
      ensures !Truthy(ctx.userId) ==> r == Err(NotAuthenticated)
      ensures Truthy(ctx.userId) && ctx.userId.value !in old(users) ==> r == Err(NullDereference)
      ensures r.Err? ==> users == old(users) && books == old(books)
      ensures r.Ok? <==> Truthy(ctx.userId) && ctx.userId.value in old(users)
      ensures r.Ok? ==> r.value == AddedBook(bookId, ctx.userId.value, title, author, now)
      ensures r.Ok? ==> books == old(books)[bookId := r.value]
      ensures r.Ok? ==> users == old(users)[ctx.userId.value :=
                old(users)[ctx.userId.value].(books := old(users)[ctx.userId.value].books + [bookId])]
    {
      var uid :- GetUserId(ctx);
      var user := FindById(users, uid);
      if user.None? {
        return Err(NullDereference);
      }
      var book := AddedBook(bookId, uid, title, author, now);
      AddBookKeepsConsistent(users, books, uid, book);
      books := books[bookId := book];
      users := users[uid := user.value.(books := user.value.books + [bookId])];
      r := Ok(book);
    }

    /**
     * Mutation `doneRead`: any authenticated caller may complete any stored book; there
     * is no ownership check. Yields the document as found (before the update), or null
     * for an unknown id, which changes nothing.
     */
    method DoneRead(ctx: Context, bookId: Id, comment: Option<string>, now: Time)
      returns (r: Result<Option<Book>, Error>)
      requires Valid()
      modifies this
      ensures Valid() && users == old(users)
      ensures !Truthy(ctx.userId) ==> r == Err(NotAuthenticated) && books == old(books)
      ensures Truthy(ctx.userId) && bookId !in old(books) ==> r == Ok(None) && books == old(books)
      ensures Truthy(ctx.userId) && bookId in old(books) ==>
                r == Ok(Some(old(books)[bookId])) &&
                books == old(books)[bookId := Completed(old(books)[bookId], comment, now)]
    {
      var _ :- GetUserId(ctx);
      var found := FindById(books, bookId);
      if found.Some? {
        CompleteKeepsConsistent(users, books, bookId, comment, now);
        books := books[bookId := Completed(found.value, comment, now)];
      }
      r := Ok(found);
    }
  }

  /**
   * Registering under an email no stored user has makes the new user the only match
   * for that email, and the registered password then logs in with a token that
   * verifies to the new user's id and username.
   */
  lemma RegisterThenLogin(users: map<Id, User>, users': map<Id, User>, u: User, email: string, password: string,
                          crypto: Crypto)
    requires Lawful(crypto)
    requires forall id :: id in users ==> users[id].email != Some(email)
    requires u.email == Some(email) && u.password == Some(crypto.hash(password))
    requires users' == users[u.id := u]
    ensures u.id in users' && users'[u.id] == u
    ensures forall id :: id in users' && users'[id].email == Some(email) ==> id == u.id
    ensures BooklistUtils.Login(Some(u), password, crypto).Ok?
    ensures crypto.verify(BooklistUtils.Login(Some(u), password, crypto).value.token) == Some(Claims(u.id, u.username))
  {
    LoginAcceptsRegisteredPassword(u, password, crypto);
  }

  /**
   * In a consistent store, every entry `User.books` yields is a stored book owned by
   * the user, and `Book.user` of that book yields the user back.
   */
  lemma UserBooksRoundTrip(db: Database, ctx: Context, u: User, i: int)
    requires db.Valid() && Truthy(ctx.userId) && u.id in db.users
    requires 0 <= i < |db.users[u.id].books|
    ensures db.UserBooks(ctx, u).Ok? && db.UserBooks(ctx, u).value[i].Some?
    ensures db.UserBooks(ctx, u).value[i].value.userId == Some(u.id)
    ensures db.BookUser(ctx, db.UserBooks(ctx, u).value[i].value) == Ok(Some(db.users[u.id]))
  {
    var bid := db.users[u.id].books[i];
    assert bid in db.books;
    assert db.books[bid].userId == Some(u.id);
    assert db.books[bid].id == bid;
  }
}

=== FILE: booklist_utils.dfy ===
/** The authentication gate and the credential check of the booklist service. */
module BooklistUtils {
  import opened Wrappers
  import opened BooklistModels
  import opened BooklistCrypto

  /** What a resolver can throw. */
  datatype Error =
    | NotAuthenticated      // getUserId on an anonymous context
    | WrongEmailOrPassword  // login with an unknown email or a wrong password
    | DataAndHashRequired   // bcrypt.compareSync given a user without a stored password
    | NullDereference       // a field read on a lookup that found nothing (a TypeError)

  /** The message the thrown Error carries. */
  function Message(e: Error): string
  {
    match e
    case NotAuthenticated => "Not Authenticated"
    case WrongEmailOrPassword => "Wrong email or password"
    case DataAndHashRequired => "data and hash arguments required"
    case NullDereference => "Cannot read property of null"
  }

  /** The per-request GraphQL context; `userId` is copied from the request. */
  datatype Context = Context(userId: Option<Id>)

  /** What a successful login returns. */
  datatype AuthPayload = AuthPayload(token: string, user: User)

  /** The gate every protected resolver passes: admits a context with a truthy userId. */
  function GetUserId(ctx: Context): (r: Result<Id, Error>)
    ensures r.Ok? <==> ctx.userId.Some? && ctx.userId.value != ""
    ensures r.Ok? ==> r.value == ctx.userId.value
    ensures r.Err? ==> r.error == NotAuthenticated
  {
    if Truthy(ctx.userId) then Ok(ctx.userId.value) else Err(NotAuthenticated)
  }

  /**
   * The credential check: succeeds exactly when a user was found and the password
   * matches its stored hash, and then issues a token for the user's id and username.
   */
  function Login(user: Option<User>, password: string, crypto: Crypto): (r: Result<AuthPayload, Error>)
    ensures r.Ok? <==>
      user.Some? && user.value.password.Some? && crypto.compare(password, user.value.password.value)
    ensures r.Ok? ==> r.value.user == user.value
    ensures r.Ok? ==> r.value.token == crypto.sign(Claims(user.value.id, user.value.username))
    ensures user.None? ==> r == Err(WrongEmailOrPassword)
    ensures user.Some? && user.value.password.Some? ==>
      (!crypto.compare(password, user.value.password.value) ==> r == Err(WrongEmailOrPassword))
    ensures user.Some? && user.value.password.None? ==> r == Err(DataAndHashRequired)
  {
    match user
    case None => Err(WrongEmailOrPassword)
    case Some(u) =>
      if u.password.None? then Err(DataAndHashRequired)
      else if crypto.compare(password, u.password.value) then
        Ok(AuthPayload(crypto.sign(Claims(u.id, u.username)), u))
      else Err(WrongEmailOrPassword)
  }

  /** The token a successful login issues decodes back to the user's id and username. */
  lemma LoginTokenDecodes(user: User, password: string, crypto: Crypto)
    requires Lawful(crypto)
    requires Login(Some(user), password, crypto).Ok?
    ensures crypto.verify(Login(Some(user), password, crypto).value.token)
              == Some(Claims(user.id, user.username))
  {
  }

  /** A user whose stored password is the hash of `password` logs in with it. */
  lemma LoginAcceptsRegisteredPassword(user: User, password: string, crypto: Crypto)
    requires Lawful(crypto)
    requires user.password == Some(crypto.hash(password))
    ensures Login(Some(user), password, crypto) ==
              Ok(AuthPayload(crypto.sign(Claims(user.id, user.username)), user))
  {
  }

  /** An unknown email and a wrong password fail with the same error and message. */
  lemma LoginFailuresIndistinguishable(user: User, password: string, crypto: Crypto)
    requires user.password.Some? && !crypto.compare(password, user.password.value)
    ensures Login(Some(user), password, crypto) == Login(None, password, crypto)
    ensures Message(Login(None, password, crypto).error) == "Wrong email or password"
  {
  }
}

=== FILE: jest_helpers.dfy ===
/**
 * The helper functions of unit-test-with-jest. `index.js` and `src/index.js` define
 * the same `useless`, `amazingFunction` and `filterByTerm`; `src/index.js` adds
 * `doSomething`. Each is defined once here.
 */
module JestHelpers {

  /** `useless()`: the constant its tests expect. */
  function Useless(): (r: int)
    ensures r == 21
  {
    21
  }

  /** `amazingFunction(num, callback)`: the number plus what the callback returns, over integers. */
  function AmazingFunction(num: int, callback: () -> int): (r: int)
    ensures r - num == callback()
    ensures r > num <==> callback() > 0
  {
    num + callback()
  }

  /** `doSomething(x, y, callback)`: the callback applied to both arguments. */
  function DoSomething<X, Y, R>(x: X, y: Y, callback: (X, Y) -> R): (r: R)
    ensures r == callback(x, y)
  {
    callback(x, y)
  }

  /** An element of the array `filterByTerm` filters. */
  datatype Entry = Entry(id: int, url: string)

  /** ASCII lower case, as the `i` flag compares letters. */
  function Lower(c: char): char
  {
    if 'A' <= c <= 'Z' then (c as int + 32) as char else c
  }

  function LowerAll(s: string): (r: string)
    ensures |r| == |s| && forall i :: 0 <= i < |s| ==> r[i] == Lower(s[i])
  {
    if |s| == 0 then "" else [Lower(s[0])] + LowerAll(s[1..])
  }

  /** `s` starts with `t`, ignoring case. */
  predicate StartsWithIgnoreCase(s: string, t: string)
  {
    |t| <= |s| && LowerAll(s[..|t|]) == LowerAll(t)
  }

  /** `s` contains `t` somewhere, ignoring case: what `s.match(new RegExp(t, "i"))` finds for a literal `t`. */
  predicate ContainsIgnoreCase(s: string, t: string)
    decreases |s|
  {
    StartsWithIgnoreCase(s, t) || (|s| > 0 && ContainsIgnoreCase(s[1..], t))
  }

  /** `filterByTerm(inputArr, searchTerm)` for a literal term: the entries whose url contains it. */
  function FilterByTerm(entries: seq<Entry>, term: string): (r: seq<Entry>)
    ensures |r| <= |entries|
    ensures forall e :: e in r <==> e in entries && ContainsIgnoreCase(e.url, term)
  {
    if |entries| == 0 then []
    else
      var rest := FilterByTerm(entries[1..], term);
      assert forall e :: e in entries <==> e == entries[0] || e in entries[1..];
      if ContainsIgnoreCase(entries[0].url, term) then [entries[0]] + rest else rest
  }

  /**
   * The filter works entry by entry: filtering a concatenation is concatenating the
   * filtered parts. With the membership clause above, this fixes order and the number
   * of copies kept: a matching entry is kept as often as it occurs.
   */
  lemma {:induction false} FilterSplit(a: seq<Entry>, b: seq<Entry>, term: string)
    ensures FilterByTerm(a + b, term) == FilterByTerm(a, term) + FilterByTerm(b, term)
  {
    if |a| > 0 {
      assert (a + b)[1..] == a[1..] + b;
      FilterSplit(a[1..], b, term);
    } else {
      assert a + b == b;
    }
  }

  /** `a` is `b` with some elements left out, the rest in their order. */
  predicate IsSubsequence<T(==)>(a: seq<T>, b: seq<T>)
    decreases |b|
  {
    |a| == 0 || (|b| > 0 && ((a[0] == b[0] && IsSubsequence(a[1..], b[1..])) || IsSubsequence(a, b[1..])))
  }

  /** The filter keeps the kept entries in their original order. */
  lemma {:induction false} FilterIsSubsequence(entries: seq<Entry>, term: string)
    ensures IsSubsequence(FilterByTerm(entries, term), entries)
  {
    if |entries| > 0 {
      FilterIsSubsequence(entries[1..], term);
      var rest := FilterByTerm(entries[1..], term);
      if ContainsIgnoreCase(entries[0].url, term) {
        assert ([entries[0]] + rest)[1..] == rest;
      } else if |rest| > 0 {
        assert IsSubsequence(rest, entries[1..]);
      }
    }
  }

  /** Filtering the result again with the same term changes nothing. */
  lemma {:induction false} FilterIdempotent(entries: seq<Entry>, term: string)
    ensures FilterByTerm(FilterByTerm(entries, term), term) == FilterByTerm(entries, term)
  {
    if |entries| > 0 {
      FilterIdempotent(entries[1..], term);
      var rest := FilterByTerm(entries[1..], term);
      if ContainsIgnoreCase(entries[0].url, term) {
        assert ([entries[0]] + rest)[1..] == rest;
      }
    }
  }

  lemma {:induction false} ContainsIgnoresTermCase(s: string, t: string, t': string)
    requires LowerAll(t) == LowerAll(t')
    ensures ContainsIgnoreCase(s, t) == ContainsIgnoreCase(s, t')
    decreases |s|
  {
    assert |t| == |t'| by {
      assert |LowerAll(t)| == |t| && |LowerAll(t')| == |t'|;
    }
    if |s| > 0 {
      ContainsIgnoresTermCase(s[1..], t, t');
    }
  }

  /** Two terms that differ only in letter case filter alike. */
  lemma {:induction false} FilterIgnoresTermCase(entries: seq<Entry>, t: string, t': string)
    requires LowerAll(t) == LowerAll(t')
    ensures FilterByTerm(entries, t) == FilterByTerm(entries, t')
  {
    if |entries| > 0 {
      ContainsIgnoresTermCase(entries[0].url, t, t');
      FilterIgnoresTermCase(entries[1..], t, t');
    }
  }

  /** The test's values: `useless()` is 21, and `amazingFunction(21, useless)` is 42. */
  lemma UselessAndAmazingFunctionTests()
    ensures Useless() == 21
    ensures AmazingFunction(21, () => Useless()) == 42
  {
  }

  /** The test's value: `doSomething(1, 1, mock)` with the mock `() => x + y` for `x = y = 1` is 2. */
  lemma DoSomethingTest()
    ensures DoSomething(1, 1, (_: int, _: int) => 1 + 1) == 2
  {
  }

  /** A match at position `i` is a match. */
  lemma {:induction false} ContainsAt(s: string, t: string, i: nat)
    requires i <= |s| && StartsWithIgnoreCase(s[i..], t)
    ensures ContainsIgnoreCase(s, t)
    decreases i
  {
    if i > 0 {
      assert s[1..][i - 1..] == s[i..];
      ContainsAt(s[1..], t, i - 1);
    }
  }

  /** A string lacking some letter of the term, in either case, does not contain it. */
  lemma {:induction false} MissingLetterNoMatch(s: string, t: string, j: nat)
    requires j < |t| && forall k :: 0 <= k < |s| ==> Lower(s[k]) != Lower(t[j])
    ensures !ContainsIgnoreCase(s, t)
    decreases |s|
  {
    if |s| > 0 {
      MissingLetterNoMatch(s[1..], t, j);
    }
  }

  const TestEntries: seq<Entry> := [
    Entry(1, "https://www.url1.dev"),
    Entry(2, "https://www.url2.dev"),
    Entry(3, "https://www.link3.dev")
  ]

  lemma Link3Matches()
    ensures ContainsIgnoreCase("https://www.link3.dev", "link")
  {
    var link3 := "https://www.link3.dev";
    assert link3[12..][..4] == "link";
    ContainsAt(link3, "link", 12);
  }

  lemma UrlWithoutLetterI(url: string)
    requires url == "https://www.url1.dev" || url == "https://www.url2.dev"
    ensures !ContainsIgnoreCase(url, "link")
  {
    assert forall k :: 0 <= k < |url| ==> url[k] != 'i' && url[k] != 'I';
    MissingLetterNoMatch(url, "link", 1);
  }

  /** Only the third of three entries matches: the filter keeps exactly that one. */
  lemma FilterKeepsOnlyThird(entries: seq<Entry>, term: string)
    requires |entries| == 3
    requires !ContainsIgnoreCase(entries[0].url, term) && !ContainsIgnoreCase(entries[1].url, term)
    requires ContainsIgnoreCase(entries[2].url, term)
    ensures FilterByTerm(entries, term) == [entries[2]]
  {
    assert entries[1..][1..] == entries[2..];
    assert entries[2..][1..] == [];
  }

  /** The test's filter: "link" and "LINK" both keep only entry 3. */
  lemma FilterByTermTest(term: string)
    requires term == "link" || term == "LINK"
    ensures FilterByTerm(TestEntries, term) == [Entry(3, "https://www.link3.dev")]
  {
    Link3Matches();
    UrlWithoutLetterI("https://www.url1.dev");
    UrlWithoutLetterI("https://www.url2.dev");
    FilterKeepsOnlyThird(TestEntries, "link");
    LowerLink();
    FilterIgnoresTermCase(TestEntries, "LINK", "link");
  }

  lemma LowerLink()
    ensures LowerAll("LINK") == LowerAll("link")
  {
  }
}

=== FILE: js_numbers.dfy ===
/**
 * JavaScript's `parseInt(s)` with no radix, on the inputs the routers pass it:
 * leading whitespace is skipped, one sign is read, a "0x"/"0X" prefix selects
 * base 16 (base 10 otherwise), and the longest run of digits is converted. No
 * digit at all gives NaN, modelled as None (NaN equals nothing under `===`).
 */
module JsNumbers {
  import opened Wrappers

  predicate IsSpace(c: char)
  {
    c == ' ' || c == '\t' || c == '\n' || c == '\r' || c == '\U{000B}' || c == '\U{000C}' ||
    c == '\U{00A0}' || c == '\U{FEFF}'
  }

  /** The value of a digit character in bases up to 36, or 36 for a non-digit. */
  function DigitValue(c: char): (d: nat)
    ensures d <= 36
  {
    if '0' <= c <= '9' then c as int - '0' as int
    else if 'a' <= c <= 'z' then c as int - 'a' as int + 10
    else if 'A' <= c <= 'Z' then c as int - 'A' as int + 10
    else 36
  }

  function TrimStart(s: string): (r: string)
    ensures |r| <= |s| && r == s[|s| - |r|..]
    ensures r == [] || !IsSpace(r[0])
  {
    if |s| > 0 && IsSpace(s[0]) then TrimStart(s[1..]) else s
  }

  /** The length of the longest prefix of `s` made of digits of the base. */
  function DigitRun(s: string, base: nat): (n: nat)
    ensures n <= |s|
    ensures forall i :: 0 <= i < n ==> DigitValue(s[i]) < base
    ensures n < |s| ==> DigitValue(s[n]) >= base
  {
    if |s| > 0 && DigitValue(s[0]) < base then
      var n := DigitRun(s[1..], base);
      assert forall i :: 1 <= i < n + 1 ==> s[i] == s[1..][i - 1];
      n + 1
    else 0
  }

  /** The value of a string of digits of the base, most significant first. */
  function DigitsValue(s: string, base: nat): nat
  {
    if |s| == 0 then 0
    else DigitsValue(s[..|s| - 1], base) * base + (if DigitValue(s[|s| - 1]) < base then DigitValue(s[|s| - 1]) else 0)
  }

  /** The magnitude `parseInt` reads after the sign: hexadecimal after "0x", else decimal. */
  function ParseMagnitude(s: string): Option<nat>
  {
    if |s| >= 2 && s[0] == '0' && (s[1] == 'x' || s[1] == 'X') then
      var n := DigitRun(s[2..], 16);
      if n == 0 then None else Some(DigitsValue(s[2..][..n], 16))
    else
      var n := DigitRun(s, 10);
      if n == 0 then None else Some(DigitsValue(s[..n], 10))
  }

  /**
   * `parseInt(s)`: None stands for NaN. A string without any decimal digit is NaN
   * (even a hexadecimal number needs its "0"), and only a minus sign gives a negative.
   */
  function ParseInt(s: string): (r: Option<int>)
    ensures (forall i :: 0 <= i < |s| ==> !('0' <= s[i] <= '9')) ==> r.None?
    ensures r.Some? && r.value < 0 ==> '-' in s
  {
    var t := TrimStart(s);
    if |t| > 0 && (t[0] == '-' || t[0] == '+') then
      var m := ParseMagnitude(t[1..]);
      match m
      case None => None
      case Some(v) =>
        var signed: int := if t[0] == '-' then -(v as int) else v;
        Some(signed)
    else
      match ParseMagnitude(t)
      case None => None
      case Some(v) => Some(v)
  }

  /** The decimal digits of `n`, as `String(n)` writes them. */
  function DecimalString(n: nat): (s: string)
    ensures |s| > 0
    ensures forall i :: 0 <= i < |s| ==> '0' <= s[i] <= '9'
    decreases n
  {
    var last := ['0' + ((n % 10) as char)];
    if n < 10 then last else DecimalString(n / 10) + last
  }

  lemma {:induction false} DecimalStringValue(n: nat)
    ensures DigitsValue(DecimalString(n), 10) == n
    decreases n
  {
    var s := DecimalString(n);
    assert s[..|s| - 1] == if n < 10 then [] else DecimalString(n / 10);
    if n >= 10 {
      DecimalStringValue(n / 10);
    }
  }

  lemma {:induction false} DecimalRunIsWhole(s: string)
    requires forall i :: 0 <= i < |s| ==> '0' <= s[i] <= '9'
    ensures DigitRun(s, 10) == |s|
    decreases |s|
  {
    if |s| > 0 {
      DecimalRunIsWhole(s[1..]);
    }
  }

  /** The magnitude read from the decimal digits of `n` is `n`. */
  lemma MagnitudeOfDecimal(n: nat)
    ensures ParseMagnitude(DecimalString(n)) == Some(n)
  {
    var d := DecimalString(n);
    DecimalRunIsWhole(d);
    DecimalStringValue(n);
    assert d[..|d|] == d;
    assert !(|d| >= 2 && d[0] == '0' && (d[1] == 'x' || d[1] == 'X'));
  }

  /** `parseInt(String(n))` is `n`, so a route parameter written from an id reads it back. */
  lemma ParseDecimalRoundTrip(n: nat)
    ensures ParseInt(DecimalString(n)) == Some(n)
    ensures ParseInt("-" + DecimalString(n)) == Some(-(n as int))
  {
    var d := DecimalString(n);
    MagnitudeOfDecimal(n);
    assert !IsSpace(d[0]) && d[0] != '-' && d[0] != '+';
    assert TrimStart(d) == d;
    var s := "-" + d;
    assert !IsSpace(s[0]);
    assert TrimStart(s) == s;
    assert s[1..] == d;
  }
}

=== FILE: library_schema.dfy ===
/**
 * The learn_graphql schema: books and authors held in two constant arrays, root
 * lookups by id, and the two relationship resolvers `Book.author` and
 * `Author.books`, all plain finds and filters.
 */
module LibrarySchema {
  import opened Wrappers

  datatype Book = Book(name: string, genre: string, id: string, authorId: string)
  datatype Author = Author(name: string, age: int, id: string)

  const Books: seq<Book> := [
    Book("The Silmarillion", "Fantasy", "1", "1"),
    Book("1984", "Dystopian", "2", "2"),
    Book("The Hobbit", "Fantasy", "3", "1"),
    Book("Animal Farm", "Dystopian", "4", "2"),
    Book("Digital Fortress", "Fiction", "5", "3"),
    Book("Da Vinci Code", "Fiction", "6", "3")
  ]

  const Authors: seq<Author> := [
    Author("J.R.R Tolkien", 69, "1"),
    Author("George Orwell", 42, "2"),
    Author("Dan Brown", 39, "3")
  ]

  function BookId(b: Book): string { b.id }
  function AuthorId(a: Author): string { a.id }

  /**
   * `_.find(xs, { id })` over either array, `key` reading an element's id: the first
   * element whose id is `id`; an absent id finds nothing.
   */
  function Find<T>(xs: seq<T>, key: T -> string, id: Option<string>): (r: Option<T>)
    ensures r.Some? <==> id.Some? && exists i :: 0 <= i < |xs| && key(xs[i]) == id.value
    ensures r.Some? ==> r.value in xs && key(r.value) == id.value
    ensures r.Some? ==> exists k :: 0 <= k < |xs| && r.value == xs[k] &&
                                   forall i :: 0 <= i < k ==> key(xs[i]) != id.value
  {
    if id.None? || |xs| == 0 then None
    else if key(xs[0]) == id.value then Some(xs[0])
    else
      var r := Find(xs[1..], key, id);
      assert forall i :: 1 <= i < |xs| ==> xs[i] == xs[1..][i - 1];
      assert r.Some? ==> exists k :: 0 <= k < |xs| && r.value == xs[k] &&
                                     forall i :: 0 <= i < k ==> key(xs[i]) != id.value by {
        if r.Some? {
          var k :| 0 <= k < |xs[1..]| && r.value == xs[1..][k] &&
                   forall i :: 0 <= i < k ==> key(xs[1..][i]) != id.value;
          assert r.value == xs[k + 1];
        }
      }
      r
  }

  /** `_.filter(books, { authorId })`: the author's books, in the order of the array. */
  function BooksBy(books: seq<Book>, authorId: string): (r: seq<Book>)
    ensures |r| <= |books|
    ensures forall b :: b in r <==> b in books && b.authorId == authorId
  {
    if |books| == 0 then []
    else
      var rest := BooksBy(books[1..], authorId);
      assert forall b :: b in books <==> b == books[0] || b in books[1..];
      if books[0].authorId == authorId then [books[0]] + rest else rest
  }

  /**
   * The filter works book by book: filtering a concatenation is concatenating the
   * filtered parts. With the membership clause above, this fixes order and multiplicity.
   */
  lemma {:induction false} BooksBySplit(a: seq<Book>, b: seq<Book>, authorId: string)
    ensures BooksBy(a + b, authorId) == BooksBy(a, authorId) + BooksBy(b, authorId)
  {
    if |a| > 0 {
      assert (a + b)[1..] == a[1..] + b;
      BooksBySplit(a[1..], b, authorId);
    } else {
      assert a + b == b;
    }
  }

  /** Root query `book(id)`: the ids "1" to "6" each find their book; any other id, or none, finds nothing. */
  function QueryBook(id: Option<string>): (r: Option<Book>)
    ensures r.Some? <==> id.Some? && id.value in {"1", "2", "3", "4", "5", "6"}
    ensures r.Some? ==> r.value in Books && r.value.id == id.value
  {
    assert forall i :: 0 <= i < |Books| ==> Books[i].id in {"1", "2", "3", "4", "5", "6"};
    assert Books[0].id == "1" && Books[1].id == "2" && Books[2].id == "3";
    assert Books[3].id == "4" && Books[4].id == "5" && Books[5].id == "6";
    Find(Books, BookId, id)
  }

  /** Root query `author(id)`: the ids "1" to "3" each find their author; any other id, or none, finds nothing. */
  function QueryAuthor(id: Option<string>): (r: Option<Author>)
    ensures r.Some? <==> id.Some? && id.value in {"1", "2", "3"}
    ensures r.Some? ==> r.value in Authors && r.value.id == id.value
  {
    assert forall i :: 0 <= i < |Authors| ==> Authors[i].id in {"1", "2", "3"};
    assert Authors[0].id == "1" && Authors[1].id == "2" && Authors[2].id == "3";
    Find(Authors, AuthorId, id)
  }

  /** `Book.author`: the author whose id is the book's `authorId`, if there is one. */
  function BookAuthor(b: Book): (r: Option<Author>)
    ensures r.Some? <==> exists j :: 0 <= j < |Authors| && Authors[j].id == b.authorId
    ensures r.Some? ==> r.value in Authors && r.value.id == b.authorId
  {
    Find(Authors, AuthorId, Some(b.authorId))
  }

  /** `Author.books`: the books whose `authorId` is the author's id, in array order. */
  function AuthorBooks(a: Author): (r: seq<Book>)
    ensures |r| <= |Books|
    ensures forall b :: b in r <==> b in Books && b.authorId == a.id
  {
    BooksBy(Books, a.id)
  }

  /** No two authors share an id. */
  predicate DistinctAuthorIds(authors: seq<Author>)
  {
    forall i, j :: 0 <= i < j < |authors| ==> authors[i].id != authors[j].id
  }

  /** Every book's `authorId` names an author. */
  predicate AuthorsKnown(books: seq<Book>, authors: seq<Author>)
  {
    forall i :: 0 <= i < |books| ==> exists j :: 0 <= j < |authors| && authors[j].id == books[i].authorId
  }

  /** The fixed data: author ids distinct, and every book's author present. */
  lemma FixedDataWellFormed()
    ensures DistinctAuthorIds(Authors) && AuthorsKnown(Books, Authors)
  {
    assert Authors[0].id == "1" && Authors[1].id == "2" && Authors[2].id == "3";
  }

  /** With distinct author ids, the first author with an id is the only one. */
  lemma {:induction false} FindDistinct(authors: seq<Author>, a: Author)
    requires DistinctAuthorIds(authors) && a in authors
    ensures Find(authors, AuthorId, Some(a.id)) == Some(a)
  {
    if authors[0] != a {
      assert authors[0].id != a.id by {
        var j :| 0 <= j < |authors| && authors[j] == a;
        assert j != 0;
      }
      assert DistinctAuthorIds(authors[1..]) by {
        forall i, j | 0 <= i < j < |authors[1..]| ensures authors[1..][i].id != authors[1..][j].id {
          assert authors[1..][i] == authors[i + 1] && authors[1..][j] == authors[j + 1];
        }
      }
      FindDistinct(authors[1..], a);
    }
  }

  /** Round trip: every book an author lists has that author as its `Book.author`. */
  lemma AuthorBooksPointBack(authors: seq<Author>, books: seq<Book>, a: Author, b: Book)
    requires DistinctAuthorIds(authors) && a in authors
    requires b in BooksBy(books, a.id)
    ensures Find(authors, AuthorId, Some(b.authorId)) == Some(a)
  {
    FindDistinct(authors, a);
  }

  /** The same round trip on the fixed data. */
  lemma FixedAuthorBooksPointBack(a: Author, b: Book)
    requires a in Authors && b in AuthorBooks(a)
    ensures BookAuthor(b) == Some(a)
  {
    FixedDataWellFormed();
    AuthorBooksPointBack(Authors, Books, a, b);
  }

  /** `Book.author` always finds an author on the fixed data. */
  lemma FixedBookAuthorExists(b: Book)
    requires b in Books
    ensures BookAuthor(b).Some? && BookAuthor(b).value.id == b.authorId
  {
    FixedDataWellFormed();
    var i :| 0 <= i < |Books| && Books[i] == b;
    var j :| 0 <= j < |Authors| && Authors[j].id == Books[i].authorId;
  }

  /** The books whose author is in `ids`, in array order. */
  function BooksByAny(books: seq<Book>, ids: set<string>): seq<Book>
  {
    if |books| == 0 then []
    else
      var rest := BooksByAny(books[1..], ids);
      if books[0].authorId in ids then [books[0]] + rest else rest
  }

  /** Every author's `books` list, one after the other. */
  function AllAuthorBooks(books: seq<Book>, authors: seq<Author>): seq<Book>
  {
    if |authors| == 0 then []
    else BooksBy(books, authors[0].id) + AllAuthorBooks(books, authors[1..])
  }

  function AuthorIds(authors: seq<Author>): set<string>
  {
    set a | a in authors :: a.id
  }

  lemma {:induction false} BooksByAnySplit(books: seq<Book>, id: string, ids: set<string>)
    requires id !in ids
    ensures multiset(BooksByAny(books, {id} + ids)) == multiset(BooksBy(books, id)) + multiset(BooksByAny(books, ids))
  {
    if |books| > 0 {
      BooksByAnySplit(books[1..], id, ids);
    }
  }

  lemma {:induction false} BooksByAnyAll(books: seq<Book>, ids: set<string>)
    requires forall b :: b in books ==> b.authorId in ids
    ensures BooksByAny(books, ids) == books
  {
    if |books| > 0 {
      assert books == [books[0]] + books[1..];
      BooksByAnyAll(books[1..], ids);
    }
  }

  lemma {:induction false} AllAuthorBooksAreBooksOfThem(books: seq<Book>, authors: seq<Author>)
    requires DistinctAuthorIds(authors)
    ensures multiset(AllAuthorBooks(books, authors)) == multiset(BooksByAny(books, AuthorIds(authors)))
  {
    if |authors| == 0 {
      assert AuthorIds(authors) == {};
      EmptyIdsSelectNothing(books);
    } else {
      var rest := authors[1..];
      assert DistinctAuthorIds(rest) by {
        forall i, j | 0 <= i < j < |rest| ensures rest[i].id != rest[j].id {
          assert rest[i] == authors[i + 1] && rest[j] == authors[j + 1];
        }
      }
      assert authors == [authors[0]] + rest;
      assert AuthorIds(authors) == {authors[0].id} + AuthorIds(rest);
      assert authors[0].id !in AuthorIds(rest) by {
        forall a | a in rest ensures a.id != authors[0].id {
          var j :| 0 <= j < |rest| && rest[j] == a;
          assert authors[j + 1] == a;
        }
      }
      AllAuthorBooksAreBooksOfThem(books, rest);
      BooksByAnySplit(books, authors[0].id, AuthorIds(rest));
    }
  }

  lemma {:induction false} EmptyIdsSelectNothing(books: seq<Book>)
    ensures BooksByAny(books, {}) == []
  {
    if |books| > 0 {
      EmptyIdsSelectNothing(books[1..]);
    }
  }

  /**
   * The `Author.books` lists partition the books: together, with distinct author ids
   * and every book's author present, they hold each book exactly as often as the array.
   */
  lemma AuthorBooksPartition(books: seq<Book>, authors: seq<Author>)
    requires DistinctAuthorIds(authors) && AuthorsKnown(books, authors)
    ensures multiset(AllAuthorBooks(books, authors)) == multiset(books)
  {
    AllAuthorBooksAreBooksOfThem(books, authors);
    forall b | b in books ensures b.authorId in AuthorIds(authors) {
      var i :| 0 <= i < |books| && books[i] == b;
      var j :| 0 <= j < |authors| && authors[j].id == books[i].authorId;
    }
    BooksByAnyAll(books, AuthorIds(authors));
  }

  /** On the fixed data, the three authors' lists partition the six books. */
  lemma FixedAuthorBooksPartition()
    ensures multiset(AllAuthorBooks(Books, Authors)) == multiset(Books)
  {
    FixedDataWellFormed();
    AuthorBooksPartition(Books, Authors);
  }
}

=== FILE: members_router.dfy ===
/**
 * The members router of express_crash_course: an Express router over an in-memory
 * array of members. Members loaded at start-up have numeric ids; members created by
 * POST get uuid strings, while every lookup compares ids with `parseInt` of the
 * route parameter under `===`.
 */
module MembersRouter {
  import opened Wrappers
  import opened JsNumbers

  /** A member id: a number, or a uuid string. */
  datatype MemberId = Num(n: int) | Uuid(s: string)

  datatype Member = Member(id: MemberId, name: Option<string>, email: Option<string>, status: string)

  /** What a route sends: a status code and a JSON body. */
  datatype Reply =
    | List(status: int, members: seq<Member>)
    | Message(status: int, msg: string)
    | Updated(status: int, msg: string, member: Member)
    | Deleted(status: int, msg: string, remaining: seq<Member>)

  function NotFoundMessage(param: string): string
  {
    "No member with the id of " + param
  }

  /**
   * `member.id === key`, where `key` is `parseInt` of the route parameter: a numeric
   * id equal to the parsed number. NaN (None) equals nothing.
   */
  predicate Matches(m: Member, key: Option<int>)
  {
    m.id.Num? && key == Some(m.id.n)
  }

  /** `members.some(...)` with that comparison. */
  predicate Found(members: seq<Member>, key: Option<int>)
  {
    exists i :: 0 <= i < |members| && Matches(members[i], key)
  }

  /** `members.filter(...)`, keeping the members that match (or, with `keep` false, those that do not). */
  function Select(members: seq<Member>, key: Option<int>, keep: bool): (r: seq<Member>)
    ensures |r| <= |members|
    ensures forall m :: m in r <==> m in members && Matches(m, key) == keep
  {
    if |members| == 0 then []
    else
      var rest := Select(members[1..], key, keep);
      assert forall m :: m in members <==> m == members[0] || m in members[1..];
      if Matches(members[0], key) == keep then [members[0]] + rest else rest
  }

  /**
   * The filter works member by member: filtering a concatenation is concatenating the
   * filtered parts. With the membership clause above, this fixes order and multiplicity.
   */
  lemma {:induction false} SelectSplit(a: seq<Member>, b: seq<Member>, key: Option<int>, keep: bool)
    ensures Select(a + b, key, keep) == Select(a, key, keep) + Select(b, key, keep)
  {
    if |a| > 0 {
      assert (a + b)[1..] == a[1..] + b;
      SelectSplit(a[1..], b, key, keep);
    } else {
      assert a + b == b;
    }
  }

  /** PUT's update of one member: a truthy name or email replaces the stored one. */
  function Patch(m: Member, name: Option<string>, email: Option<string>): (r: Member)
    ensures r.id == m.id && r.status == m.status
    ensures r.name == (if Truthy(name) then name else m.name)
    ensures r.email == (if Truthy(email) then email else m.email)
  {
    m.(name := if Truthy(name) then name else m.name,
       email := if Truthy(email) then email else m.email)
  }

  /** How many of the first `n` members match. */
  function MatchCount(members: seq<Member>, key: Option<int>, n: nat): nat
    requires n <= |members|
  {
    if n == 0 then 0
    else MatchCount(members, key, n - 1) + (if Matches(members[n - 1], key) then 1 else 0)
  }

  lemma {:induction false} MatchCountMonotone(members: seq<Member>, key: Option<int>, m: nat, n: nat)
    requires m <= n <= |members|
    ensures MatchCount(members, key, m) <= MatchCount(members, key, n)
    decreases n - m
  {
    if m < n {
      MatchCountMonotone(members, key, m, n - 1);
    }
  }

  lemma {:induction false} NoMatchCountsZero(members: seq<Member>, key: Option<int>, n: nat)
    requires n <= |members|
    requires forall i :: 0 <= i < n ==> !Matches(members[i], key)
    ensures MatchCount(members, key, n) == 0
  {
    if n > 0 {
      NoMatchCountsZero(members, key, n - 1);
    }
  }

  /**
   * The member at position `k` after PUT: patched when it matches and fewer than two
   * matches come before it (the first and the second match), unchanged otherwise.
   */
  function PutEffect(members: seq<Member>, key: Option<int>, name: Option<string>, email: Option<string>, k: nat): (m: Member)
    requires k < |members|
    ensures m.id == members[k].id && m.status == members[k].status
    ensures !Matches(members[k], key) ==> m == members[k]
  {
    if Matches(members[k], key) && MatchCount(members, key, k) < 2
    then Patch(members[k], name, email) else members[k]
  }

  /** No two members share an id. */
  predicate DistinctIds(members: seq<Member>)
  {
    forall i, j :: 0 <= i < j < |members| ==> members[i].id != members[j].id
  }

  /** With distinct ids at most one member matches, so PUT's second send never happens. */
  lemma {:induction false} DistinctIdsMatchAtMostOnce(members: seq<Member>, key: Option<int>, n: nat)
    requires n <= |members| && DistinctIds(members)
    ensures MatchCount(members, key, n) <= 1
  {
    if n > 0 {
      if Matches(members[n - 1], key) {
        NoMatchCountsZero(members, key, n - 1);
      } else {
        DistinctIdsMatchAtMostOnce(members, key, n - 1);
      }
    }
  }

  /** The position of the first matching member: the one PUT sends back. */
  function FirstMatch(members: seq<Member>, key: Option<int>): (j: nat)
    requires Found(members, key)
    ensures j < |members| && Matches(members[j], key)
    ensures forall i :: 0 <= i < j ==> !Matches(members[i], key)
  {
    if Matches(members[0], key) then 0
    else
      assert forall i :: 1 <= i < |members| ==> members[i] == members[1..][i - 1];
      assert Found(members[1..], key) by {
        var i :| 0 <= i < |members| && Matches(members[i], key);
        assert members[1..][i - 1] == members[i];
      }
      1 + FirstMatch(members[1..], key)
  }

  /** A match with no match before it is the first match. */
  lemma FirstMatchUnique(members: seq<Member>, key: Option<int>, j: nat)
    requires j < |members| && Matches(members[j], key) && MatchCount(members, key, j) == 0
    ensures Found(members, key) && FirstMatch(members, key) == j
  {
    var f := FirstMatch(members, key);
    if f < j {
      MatchCountMonotone(members, key, f + 1, j);
    }
  }

  /** A member created by POST carries a uuid string id, so no route parameter finds it. */
  lemma PostedMemberNeverFound(members: seq<Member>, key: Option<int>, uuid: string, name: Option<string>, email: Option<string>)
    ensures !Matches(Member(Uuid(uuid), name, email, "active"), key)
    ensures Found(members + [Member(Uuid(uuid), name, email, "active")], key) <==> Found(members, key)
  {
    var s := members + [Member(Uuid(uuid), name, email, "active")];
    if Found(s, key) {
      var i :| 0 <= i < |s| && Matches(s[i], key);
      assert s[i] == members[i];
    }
    if Found(members, key) {
      var i :| 0 <= i < |members| && Matches(members[i], key);
      assert s[i] == members[i];
    }
  }

  /** A member id written out in decimal is found by that route parameter. */
  lemma NumericIdFound(members: seq<Member>, i: int)
    requires 0 <= i < |members| && members[i].id.Num? && members[i].id.n >= 0
    ensures Found(members, ParseInt(DecimalString(members[i].id.n)))
  {
    ParseDecimalRoundTrip(members[i].id.n);
  }

  /**
   * Where PUT's walk stops, every later member is already what PutEffect says, and a
   * walk that did not throw has seen fewer than two matches in all.
   */
  lemma WalkComplete(members: seq<Member>, key: Option<int>, name: Option<string>, email: Option<string>,
                     ms: seq<Member>, i: nat, threw: bool)
    requires Found(members, key) && i <= |ms| == |members|
    requires forall k :: 0 <= k < |ms| ==>
               ms[k] == if k < i then PutEffect(members, key, name, email, k) else members[k]
    requires threw ==> MatchCount(members, key, i) == 2
    requires !threw ==> MatchCount(members, key, i) < 2 && i == |ms|
    ensures forall k :: 0 <= k < |ms| ==> ms[k] == PutEffect(members, key, name, email, k)
    ensures threw <==> MatchCount(members, key, |members|) >= 2
    ensures MatchCount(members, key, |members|) >= 1
  {
    forall k | i <= k < |members| ensures ms[k] == PutEffect(members, key, name, email, k) {
      MatchCountMonotone(members, key, i, k);
    }
    var j :| 0 <= j < |members| && Matches(members[j], key);
    assert MatchCount(members, key, j + 1) >= 1;
    MatchCountMonotone(members, key, j + 1, |members|);
    MatchCountMonotone(members, key, i, |members|);
  }

  class Router {
    var members: seq<Member>

    constructor (initial: seq<Member>)
      ensures members == initial
    {
      members := initial;
    }

    /** GET `/`: the whole list, unchanged. */
    method GetAll() returns (r: Reply)
      ensures r == List(200, members)
    {
      r := List(200, members);
    }

    /** GET `/:id`: every member matching `parseInt(param)`, or 400 when there is none. */
    method GetOne(param: string) returns (r: Reply)
      ensures Found(members, ParseInt(param)) ==> r == List(200, Select(members, ParseInt(param), true))
      ensures Found(members, ParseInt(param)) ==>
                forall m :: m in r.members <==> m in members && Matches(m, ParseInt(param))
      ensures !Found(members, ParseInt(param)) ==> r == Message(400, NotFoundMessage(param))
    {
      var key := ParseInt(param);
      if exists i :: 0 <= i < |members| && Matches(members[i], key) {
        r := List(200, Select(members, key, true));
      } else {
        r := Message(400, NotFoundMessage(param));
      }
    }

    /**
     * POST `/`: a missing or empty name or email is refused with 400; otherwise the
     * member, active and under the uuid `newId`, is appended and the whole list sent.
     */
    method Post(name: Option<string>, email: Option<string>, newId: string) returns (r: Reply)
      modifies this
      ensures !Truthy(name) || !Truthy(email) ==>
                r == Message(400, "Please include a name and email") && members == old(members)
      ensures Truthy(name) && Truthy(email) ==>
                members == old(members) + [Member(Uuid(newId), name, email, "active")] &&
                r == List(200, members)
    {
      var newMember := Member(Uuid(newId), name, email, "active");
      if !Truthy(newMember.name) || !Truthy(newMember.email) {
        return Message(400, "Please include a name and email");
      }
      members := members + [newMember];
      r := List(200, members);
    }

    /** PUT `/:id`: 400 when no member matches `parseInt(param)`; otherwise the `forEach` below. */
    method Put(param: string, name: Option<string>, email: Option<string>)
      returns (r: Reply, threw: bool)
      modifies this
      ensures !Found(old(members), ParseInt(param)) ==>
                r == Message(400, NotFoundMessage(param)) && !threw && members == old(members)
      ensures Found(old(members), ParseInt(param)) ==>
                |members| == |old(members)| &&
                (forall k :: 0 <= k < |members| ==>
                   members[k] == PutEffect(old(members), ParseInt(param), name, email, k)) &&
                (threw <==> MatchCount(old(members), ParseInt(param), |old(members)|) >= 2) &&
                r.Updated? && r.status == 200 && r.msg == "Member is updated" &&
                r.member == Patch(old(members)[FirstMatch(old(members), ParseInt(param))], name, email)
    {
      var key := ParseInt(param);
      if !exists i :: 0 <= i < |members| && Matches(members[i], key) {
        return Message(400, NotFoundMessage(param)), false;
      }
      var sent;
      sent, threw := PatchMatching(key, name, email);
      r := Updated(200, "Member is updated", sent);
    }

    /**
     * The `forEach` of PUT: patches each member matching `key` and sends it back. The
     * reply goes out at the first match; at a second match the member is patched, then
     * sending again throws (headers already sent) and the walk stops. `threw` reports
     * that error; with unique ids it never happens.
     */
    method PatchMatching(key: Option<int>, name: Option<string>, email: Option<string>)
      returns (sent: Member, threw: bool)
      requires Found(members, key)
      modifies this
      ensures |members| == |old(members)|
      ensures forall k :: 0 <= k < |members| ==> members[k] == PutEffect(old(members), key, name, email, k)
      ensures threw <==> MatchCount(old(members), key, |old(members)|) >= 2
      ensures sent == Patch(old(members)[FirstMatch(old(members), key)], name, email)
    {
      var ms := members;
      var reply: Option<Member> := None;
      ghost var first := 0;
      threw := false;
      var i := 0;
      while i < |ms| && !threw
        invariant 0 <= i <= |ms| == |members|
        invariant forall k :: 0 <= k < |ms| ==>
                    ms[k] == if k < i then PutEffect(members, key, name, email, k) else members[k]
        invariant threw ==> MatchCount(members, key, i) == 2
        invariant !threw ==> MatchCount(members, key, i) < 2
        invariant reply.None? <==> MatchCount(members, key, i) == 0
        invariant reply.Some? ==>
                    0 <= first < i && Matches(members[first], key) &&
                    MatchCount(members, key, first) == 0 && reply.value == Patch(members[first], name, email)
      {
        if Matches(ms[i], key) {
          var patched := Patch(ms[i], name, email);
          ms := ms[i := patched];
          if reply.None? {
            reply := Some(patched);
            first := i;
          } else {
            threw := true;
          }
        }
        i := i + 1;
      }
      WalkComplete(members, key, name, email, ms, i, threw);
      FirstMatchUnique(members, key, first);
      members := ms;
      sent := reply.value;
    }

    /** DELETE `/:id`: replies with the list minus the matching members, or 404; never changes the list. */
    method Delete(param: string) returns (r: Reply)
      ensures Found(members, ParseInt(param)) ==>
                r == Deleted(200, "Member is deleted", Select(members, ParseInt(param), false))
      ensures Found(members, ParseInt(param)) ==>
                forall m :: m in r.remaining <==> m in members && !Matches(m, ParseInt(param))
      ensures !Found(members, ParseInt(param)) ==> r == Message(404, NotFoundMessage(param))
    {
      var key := ParseInt(param);
      if exists i :: 0 <= i < |members| && Matches(members[i], key) {
        r := Deleted(200, "Member is deleted", Select(members, key, false));
      } else {
        r := Message(404, NotFoundMessage(param));
      }
    }
  }
}

=== FILE: todo_server.dfy ===
/**
 * The gRPC todo server of node-express-grpc: a module-level list of todos served by
 * five handlers. `getAll` and `getById` read the list; `create`, `update` and
 * `delete` change it.
 */
module TodoServer {
  import opened Wrappers

  /** A todo message; the server trusts whatever fields the request carries. */
  datatype Todo = Todo(id: string, title: string, description: string, completed: bool)

  /** The error a handler passes to its callback. */
  datatype GrpcError = GrpcError(code: int, details: string)

  /** gRPC's NOT_FOUND status code. */
  const NOT_FOUND := 5

  const NotFound := GrpcError(NOT_FOUND, "Not found")

  /** The list the server starts with. */
  const InitialTodos := [
    Todo("a68b823c-7ca6-44bc-b721-fb4d5312cafc", "Buy milk", "Milk is needed for the baby", false),
    Todo("34415c7c-f82d-4e44-88ca-ae2a1aaa92b7", "Buy eggs", "Eggs are needed for the baby", false)
  ]

  /** Some todo in `todos` has the id. */
  predicate HasId(todos: seq<Todo>, id: string)
  {
    exists i :: 0 <= i < |todos| && todos[i].id == id
  }

  /** `findIndex` by id: the first position holding the id, or -1. */
  function FindIndex(todos: seq<Todo>, id: string): (k: int)
    ensures -1 <= k < |todos|
    ensures k == -1 <==> !HasId(todos, id)
    ensures k >= 0 ==> todos[k].id == id
    ensures k >= 0 ==> forall i :: 0 <= i < k ==> todos[i].id != id
    decreases |todos|
  {
    if |todos| == 0 then -1
    else if todos[0].id == id then 0
    else
      var k := FindIndex(todos[1..], id);
      assert forall i :: 1 <= i < |todos| ==> todos[i] == todos[1..][i - 1];
      if k == -1 then -1 else k + 1
  }

  /** `filter(t => t.id !== id)`: the todos without the id, in their order. */
  function Without(todos: seq<Todo>, id: string): (r: seq<Todo>)
    ensures |r| <= |todos|
    ensures forall t :: t in r <==> t in todos && t.id != id
    ensures |r| == |todos| <==> !HasId(todos, id)
    ensures !HasId(r, id)
    decreases |todos|
  {
    if |todos| == 0 then []
    else
      var rest := Without(todos[1..], id);
      assert forall t :: t in todos <==> t == todos[0] || t in todos[1..];
      assert HasId(todos, id) <==> todos[0].id == id || HasId(todos[1..], id) by {
        if HasId(todos[1..], id) {
          var i :| 0 <= i < |todos[1..]| && todos[1..][i].id == id;
          assert todos[i + 1].id == id;
        }
        if HasId(todos, id) && todos[0].id != id {
          var i :| 0 <= i < |todos| && todos[i].id == id;
          assert todos[1..][i - 1].id == id;
        }
      }
      if todos[0].id == id then rest else [todos[0]] + rest
  }

  /**
   * The filter works todo by todo: filtering a concatenation is concatenating the
   * filtered parts. With the membership clause above, this fixes order and multiplicity.
   */
  lemma {:induction false} WithoutSplit(a: seq<Todo>, b: seq<Todo>, id: string)
    ensures Without(a + b, id) == Without(a, id) + Without(b, id)
  {
    if |a| > 0 {
      assert (a + b)[1..] == a[1..] + b;
      WithoutSplit(a[1..], b, id);
    } else {
      assert a + b == b;
    }
  }

  /** A todo appended under an id no todo has is the one `findIndex` then finds. */
  lemma {:induction false} FindAppendedFresh(todos: seq<Todo>, t: Todo)
    requires !HasId(todos, t.id)
    ensures FindIndex(todos + [t], t.id) == |todos|
  {
    var s := todos + [t];
    assert s[|todos|].id == t.id;
    forall i | 0 <= i < |todos| ensures s[i].id != t.id {
      assert s[i] == todos[i];
    }
  }

  /** Appending a todo under a fresh id does not change what `findIndex` finds for other ids. */
  lemma {:induction false} FindAppendedOther(todos: seq<Todo>, t: Todo, id: string)
    requires id != t.id
    ensures FindIndex(todos + [t], id) == FindIndex(todos, id)
  {
    var s := todos + [t];
    var k := FindIndex(todos, id);
    forall i | 0 <= i < |todos| ensures s[i] == todos[i] { }
  }

  /** The server: the todo list and its five handlers. */
  class Server {
    var todos: seq<Todo>

    constructor ()
      ensures todos == InitialTodos
    {
      todos := InitialTodos;
    }

    /** `getAll`: the current list, unchanged. */
    method GetAll() returns (r: seq<Todo>)
      ensures r == todos
    {
      r := todos;
    }

    /** `getById`: the first todo with the id, or NOT_FOUND. */
    method GetById(id: string) returns (r: Result<Todo, GrpcError>)
      ensures r.Ok? <==> HasId(todos, id)
      ensures r.Ok? ==> r.value == todos[FindIndex(todos, id)] && r.value.id == id
      ensures r.Err? ==> r.error == NotFound
    {
      var k := FindIndex(todos, id);
      if k != -1 {
        return Ok(todos[k]);
      }
      r := Err(NotFound);
    }

    /** `create`: the request with its id replaced by the fresh `newId`, appended last. */
    method Create(request: Todo, newId: string) returns (r: Todo)
      requires !HasId(todos, newId)
      modifies this
      ensures r == request.(id := newId)
      ensures todos == old(todos) + [r]
      ensures FindIndex(todos, newId) == |old(todos)|
    {
      r := request.(id := newId);
      FindAppendedFresh(todos, r);
      todos := todos + [r];
    }

    /** `update`: the first todo with the request's id becomes the request; else NOT_FOUND. */
    method Update(request: Todo) returns (r: Result<Todo, GrpcError>)
      modifies this
      ensures r.Ok? <==> HasId(old(todos), request.id)
      ensures r.Ok? ==> r.value == request
      ensures r.Ok? ==> todos == old(todos)[FindIndex(old(todos), request.id) := request]
      ensures r.Err? ==> r.error == NotFound && todos == old(todos)
      ensures |todos| == |old(todos)|
    {
      var index := FindIndex(todos, request.id);
      if index != -1 {
        todos := todos[index := request];
        return Ok(request);
      }
      r := Err(NotFound);
    }

    /** `delete`: every todo with the id goes; NOT_FOUND, and no change, when there is none. */
    method Delete(id: string) returns (r: Result<(), GrpcError>)
      modifies this
      ensures r.Ok? <==> HasId(old(todos), id)
      ensures r.Ok? ==> todos == Without(old(todos), id) && |todos| < |old(todos)|
      ensures r.Err? ==> r.error == NotFound && todos == old(todos)
      ensures !HasId(todos, id)
    {
      var updated := Without(todos, id);
      if |updated| != |todos| {
        todos := updated;
        return Ok(());
      }
      r := Err(NotFound);
    }
  }
}

=== FILE: users_router.dfy ===
/**
 * The users router of express_crash_course/spaced_repetition: an Express router over
 * an in-memory array of users with numeric ids. GET and POST behave as expected;
 * PUT compares the numeric ids with the raw string parameter, so it never finds
 * anyone and never changes a user.
 */
module UsersRouter {
  import opened Wrappers
  import opened JsNumbers

  datatype User = User(id: int, name: Option<string>, email: Option<string>)

  /** What a route sends: a status code and a JSON body. */
  datatype Reply = List(status: int, users: seq<User>) | Message(status: int, msg: string)

  /** A JavaScript value of the two kinds the comparisons here meet. */
  datatype JsValue = Number(n: int) | Str(s: string)

  /** `a === b`: same kind and same value; a number never equals a string. */
  predicate StrictEquals(a: JsValue, b: JsValue)
  {
    a == b
  }

  /** `user.id === key`, with `key` the `parseInt` of the route parameter (NaN is None). */
  predicate Matches(u: User, key: Option<int>)
  {
    key == Some(u.id)
  }

  predicate Found(users: seq<User>, key: Option<int>)
  {
    exists i :: 0 <= i < |users| && Matches(users[i], key)
  }

  /** `users.filter(user => user.id === key)`. */
  function Select(users: seq<User>, key: Option<int>): (r: seq<User>)
    ensures |r| <= |users|
    ensures forall u :: u in r <==> u in users && Matches(u, key)
  {
    if |users| == 0 then []
    else
      var rest := Select(users[1..], key);
      assert forall u :: u in users <==> u == users[0] || u in users[1..];
      if Matches(users[0], key) then [users[0]] + rest else rest
  }

  /** PUT's `users.filter(user => user.id === req.params.id)`: the raw string, no `parseInt`. */
  function RawSelect(users: seq<User>, param: string): (r: seq<User>)
    ensures |r| <= |users|
    ensures forall u :: u in r ==> u in users && StrictEquals(Number(u.id), Str(param))
  {
    if |users| == 0 then []
    else
      var u, rest := users[0], RawSelect(users[1..], param);
      if StrictEquals(Number(u.id), Str(param)) then [u] + rest else rest
  }

  /** PUT's filter is always empty: a numeric id is never `===` a string. */
  lemma {:induction false} RawSelectIsEmpty(users: seq<User>, param: string)
    ensures RawSelect(users, param) == []
  {
    if |users| > 0 {
      RawSelectIsEmpty(users[1..], param);
    }
  }

  /** The ids are 1, 2, 3, ... in order: what POST's `length + 1` keeps when it holds. */
  predicate PositionalIds(users: seq<User>)
  {
    forall i :: 0 <= i < |users| ==> users[i].id == i + 1
  }

  /** Positional ids are distinct, so GET `/:id` then finds at most one user. */
  lemma PositionalIdsDistinct(users: seq<User>, key: Option<int>)
    requires PositionalIds(users)
    ensures forall i, j :: 0 <= i < j < |users| ==> users[i].id != users[j].id
    ensures |Select(users, key)| <= 1
  {
    if key.Some? && 1 <= key.value <= |users| {
      SelectPositional(users, key.value);
    } else {
      SelectNone(users, key);
    }
  }

  lemma {:induction false} SelectNone(users: seq<User>, key: Option<int>)
    requires !Found(users, key)
    ensures Select(users, key) == []
  {
    if |users| > 0 {
      assert !Matches(users[0], key);
      SelectNone(users[1..], key);
    }
  }

  lemma SelectPositional(users: seq<User>, n: int)
    requires PositionalIds(users) && 1 <= n <= |users|
    ensures Select(users, Some(n)) == [users[n - 1]]
  {
    var prefix, rest := users[..n - 1], users[n - 1..];
    assert users == prefix + rest;
    SelectSplit(prefix, rest, Some(n));
    SelectNone(prefix, Some(n));
    assert rest == [users[n - 1]] + rest[1..];
    forall i | 0 <= i < |rest[1..]| ensures !Matches(rest[1..][i], Some(n)) {
      assert rest[1..][i] == users[n + i];
    }
    SelectNone(rest[1..], Some(n));
  }

  lemma {:induction false} SelectSplit(a: seq<User>, b: seq<User>, key: Option<int>)
    ensures Select(a + b, key) == Select(a, key) + Select(b, key)
  {
    if |a| > 0 {
      assert (a + b)[1..] == a[1..] + b;
      SelectSplit(a[1..], b, key);
    } else {
      assert a + b == b;
    }
  }

  /** PUT's update of one user: a truthy name or email replaces the stored one. */
  function PatchUser(u: User, name: Option<string>, email: Option<string>): (r: User)
    ensures r.id == u.id
    ensures r.name == (if Truthy(name) then name else u.name)
    ensures r.email == (if Truthy(email) then email else u.email)
  {
    u.(name := if Truthy(name) then name else u.name,
       email := if Truthy(email) then email else u.email)
  }

  /**
   * PUT as written misses every user: for any stored user with id n, GET `/n` finds
   * that user, yet PUT `/n`'s filter selects nobody, so the update is lost.
   */
  lemma PutAsWrittenMissesUser(users: seq<User>, i: int)
    requires 0 <= i < |users| && users[i].id >= 0
    ensures users[i] in Select(users, ParseInt(DecimalString(users[i].id)))
    ensures RawSelect(users, DecimalString(users[i].id)) == []
  {
    ParseDecimalRoundTrip(users[i].id);
    RawSelectIsEmpty(users, DecimalString(users[i].id));
  }

  class Router {
    var users: seq<User>

    constructor (initial: seq<User>)
      ensures users == initial
    {
      users := initial;
    }

    /** GET `/`: the whole list, unchanged. */
    method GetAll() returns (r: Reply)
      ensures r == List(200, users)
    {
      r := List(200, users);
    }

    /** GET `/:id`: the users matching `parseInt(param)`; otherwise a message, with status 200. */
    method GetOne(param: string) returns (r: Reply)
      ensures Found(users, ParseInt(param)) ==> r == List(200, Select(users, ParseInt(param)))
      ensures Found(users, ParseInt(param)) ==>
                forall u :: u in r.users <==> u in users && Matches(u, ParseInt(param))
      ensures !Found(users, ParseInt(param)) ==> r == Message(200, "There is no user with id:" + param)
    {
      var key := ParseInt(param);
      if exists i :: 0 <= i < |users| && Matches(users[i], key) {
        r := List(200, Select(users, key));
      } else {
        r := Message(200, "There is no user with id:" + param);
      }
    }

    /**
     * POST `/`: refused with 400 only when name and email are both missing or empty;
     * otherwise appended last with id `length + 1`, and the whole list sent.
     */
    method Post(name: Option<string>, email: Option<string>) returns (r: Reply)
      modifies this
      ensures !Truthy(name) && !Truthy(email) ==>
                r == Message(400, "Please add name and email.") && users == old(users)
      ensures Truthy(name) || Truthy(email) ==>
                users == old(users) + [User(|old(users)| + 1, name, email)] && r == List(200, users)
      ensures PositionalIds(old(users)) ==> PositionalIds(users)
    {
      var newUser := User(|users| + 1, name, email);
      if !Truthy(newUser.name) && !Truthy(newUser.email) {
        return Message(400, "Please add name and email.");
      }
      users := users + [newUser];
      r := List(200, users);
    }

    /**
     * PUT `/:id`: the filter result is an array, which is always truthy, so the
     * not-found branch never runs; the name and email are written onto that local
     * array and dropped. No stored user changes and the list is sent back as it is.
     */
    method Put(param: string, name: Option<string>, email: Option<string>) returns (r: Reply)
      ensures RawSelect(users, param) == []
      ensures r == List(200, users)
    {
      var user := RawSelect(users, param);
      RawSelectIsEmpty(users, param);
      assert user == [];
      r := List(200, users);
    }

    /**
     * PUT `/:id` as evidently intended: every user matching `parseInt(param)` takes the
     * truthy name and email of the body and the list is sent back; with no match the
     * not-found message is sent and nothing changes.
     */
    method PutCorrected(param: string, name: Option<string>, email: Option<string>) returns (r: Reply)
      modifies this
      ensures !Found(old(users), ParseInt(param)) ==>
                users == old(users) && r == Message(200, "There is no user with id:" + param)
      ensures Found(old(users), ParseInt(param)) ==> r == List(200, users)
      ensures |users| == |old(users)|
      ensures forall k :: 0 <= k < |users| ==>
                users[k] == if Matches(old(users)[k], ParseInt(param)) then PatchUser(old(users)[k], name, email) else old(users)[k]
      ensures PositionalIds(old(users)) ==> PositionalIds(users)
    {
      var key := ParseInt(param);
      if !exists i :: 0 <= i < |users| && Matches(users[i], key) {
        return Message(200, "There is no user with id:" + param);
      }
      var us := users;
      var i := 0;
      while i < |us|
        invariant 0 <= i <= |us| == |users|
        invariant forall k :: 0 <= k < |us| ==>
                    us[k] == if k < i && Matches(users[k], key) then PatchUser(users[k], name, email) else users[k]
      {
        if Matches(us[i], key) {
          us := us[i := PatchUser(us[i], name, email)];
        }
        i := i + 1;
      }
      users := us;
      r := List(200, users);
    }
  }
}

=== FILE: verify_token.dfy ===
/**
 * The `verifyToken` middleware of the node_api_authentication service: a request
 * without an `auth-token` header gets 401, one whose token fails verification gets
 * 400, and one whose token verifies carries the decoded claims and is handed on.
 */
module VerifyToken {
  import opened Wrappers

  /** A response the middleware sends: status code and body text. */
  datatype Response = Response(status: int, body: string)

  /** One request/response exchange, as far as the middleware touches it. */
  class Exchange<Claims> {
    /** The `auth-token` header, absent when the client sent none. */
    const authToken: Option<string>
    /** `req.user`. */
    var user: Option<Claims>
    /** The response sent, if any. */
    var sent: Option<Response>
    /** How many times the request was handed on (`next()`). */
    var nextCalls: nat

    constructor (authToken: Option<string>)
      ensures this.authToken == authToken
      ensures user == None && sent == None && nextCalls == 0
    {
      this.authToken := authToken;
      user := None;
      sent := None;
      nextCalls := 0;
    }
  }

  /** What the middleware does with a request. */
  datatype Outcome<Claims> = Rejected(response: Response) | Admitted(claims: Claims)

  /**
   * The decision for a header: no (or an empty) header is refused with 401, a header
   * that does not verify (taken as it is, with no prefix stripped) with 400.
   */
  function Decide<Claims>(authToken: Option<string>, verify: string -> Option<Claims>): (o: Outcome<Claims>)
    ensures !Truthy(authToken) ==> o == Rejected(Response(401, "Access Denied"))
    ensures Truthy(authToken) && verify(authToken.value).None? ==> o == Rejected(Response(400, "Invalid Token"))
    ensures o.Admitted? <==> Truthy(authToken) && verify(authToken.value).Some?
    ensures o.Admitted? ==> Some(o.claims) == verify(authToken.value)
  {
    if !Truthy(authToken) then Rejected(Response(401, "Access Denied"))
    else match verify(authToken.value)
      case Some(claims) => Admitted(claims)
      case None => Rejected(Response(400, "Invalid Token"))
  }

  /** The middleware: exactly one of "send a response" and "call next once" happens. */
  method VerifyTokenMiddleware<Claims>(ex: Exchange<Claims>, verify: string -> Option<Claims>)
    requires ex.sent.None?
    modifies ex
    ensures Decide(ex.authToken, verify).Rejected? ==>
              ex.sent == Some(Decide(ex.authToken, verify).response) &&
              ex.nextCalls == old(ex.nextCalls) && ex.user == old(ex.user)
    ensures Decide(ex.authToken, verify).Admitted? ==>
              ex.sent.None? && ex.nextCalls == old(ex.nextCalls) + 1 &&
              ex.user == Some(Decide(ex.authToken, verify).claims)
  {
    if ex.authToken.None? || ex.authToken.value == "" {
      ex.sent := Some(Response(401, "Access Denied"));
      return;
    }
    var verified := verify(ex.authToken.value);
    match verified
    case Some(claims) =>
      ex.user := Some(claims);
      ex.nextCalls := ex.nextCalls + 1;
    case None =>
      ex.sent := Some(Response(400, "Invalid Token"));
  }
}

=== FILE: wrappers.dfy ===
/** Failure-compatible wrappers shared by every module of the model. */
module Wrappers {

  /** A value that may be absent: JavaScript's `undefined` / `null`. */
  datatype Option<+T> = None | Some(value: T)

  /** The outcome of an operation that may throw: a value or the thrown error. */
  datatype Result<+T, +E> = Ok(value: T) | Err(error: E) {
    predicate IsFailure() { Err? }

    function PropagateFailure<U>(): Result<U, E>
      requires Err?
    {
      Err(error)
    }

    function Extract(): T
      requires Ok?
    {
      value
    }
  }

  /** JavaScript truthiness of an optional string: present and not the empty string. */
  predicate Truthy(s: Option<string>)
  {
    s.Some? && s.value != ""
  }
}
